=== FILE: README.md ===
# fb536 — a verified model of a shared-canvas character driver

fb536 is a Linux character driver. It exposes one resizable two-dimensional byte canvas
to every process that opens it. Each open file has:

- a viewport, a rectangle of the canvas;
- a write operator (SET, ADD, SUB, AND, OR or XOR);
- a file position, counted row by row inside the viewport;
- a wake flag.

`read` and `write` move bytes between the file position and the canvas cells the
viewport maps them to. `llseek` moves the position. `ioctl` does the rest:

- resets the canvas to zeros;
- resizes it;
- sets and queries the viewport and the operator;
- waits for a change.

A write wakes exactly the open files whose viewport intersects the write's region. The
region is the writer's viewport columns over the rows from the write's first position to
its last. A reset or a resize wakes every open file.

This project models the sequential logic of `fb536/main.c` in Dafny and proves
properties of it. The model treats each file operation as atomic. For most operations
the device mutex makes that so. Seek, set-op and get-op take no lock, so for these three
the model assumes no concurrent use of the same open file. So the device is an immutable
record, and each file operation is a pure function from one device record to the next. A function that returns something pairs the new record with the reply.

The device record holds:

- the canvas width and height;
- the row-major canvas bytes;
- a map from handles to sessions.

A session holds the viewport, op, position, wake flag and access mode.

Modules, one per file:

- `outcomes.dfy` — `Outcomes`: option, errno and result types.
- `geometry.dfy` — `Geometry`: `struct fb_viewport` and the half-open intersection test.
- `blend.dfy` — `Blend`: bytes, bitwise operators, the six write operators and their codes.
- `translate.dfy` — `Translate`: covers three things.
  - How a viewport position maps to a canvas offset.
  - The read loop, which copies a chunk of a row at a time. `ReadChunks` is the loop as
    written, for any viewport. `ReadLoop` is the loop as a method, for a viewport inside
    the canvas.
  - The write loop, byte by byte, and the bounding region a write reports.
- `device.dfy` — `Device`: the device record, open and release, read, write, llseek,
  the ioctl commands and their dispatch.
- `properties.dfy` — `Properties`: lemmas that relate several operations, plus
  scenarios where the driver and its test programs disagree.

Integer widths are written out where they matter:

- Viewport fields are unsigned shorts. Open stores `(unsigned short)width` into its
  default viewport.
- The last position of a write is an `unsigned long`, so a zero-byte write at position 0
  wraps to 2^64 - 1.
- The fields of a write's region are stored into unsigned shorts.
- Set-size reads its width as `int new_w = arg >> 16`. That conversion keeps the low
  32 bits (`ToInt32`).
- Get-size returns `(width << 16) | (height & 0xFFFF)` as an int.
- File positions and seek offsets are `loff_t`, a signed 64-bit integer. The sums llseek
  forms wrap modulo 2^64 (`ToInt64`), so a target past 2^63 - 1 comes out negative and
  is refused.

## Where the code departs from its tests and documentation

The model follows the code. These differences are stated as lemmas.

- **Set-size bounds.** The code accepts any side in 1..10000. The test programs expect
  sides up to 255 to be rejected. See `Properties.SmallSizesAccepted`.
- **Reads after a shrink.** A read does not check its viewport against a canvas that
  shrank after the viewport was set. End of file is decided by the viewport's area
  alone. So after 500x500 shrinks to 300x300, a 10-byte read and a 10-byte write each
  transfer 10 bytes. The tests expect 0. See `Properties.ShrinkStillTransfers`.
- **The column clip in read.** When the clip at line 165 fires with the column still
  inside the canvas, the loop copies the clipped chunk. The next iteration then sits at
  column `W` with a chunk of 0 and `count` still positive. The read never returns. See
  `Translate.ReadClipStalls` and `Properties.ShrinkLongReadHangs`.
- **A viewport past the right edge.** `W - global_col` wraps as an `unsigned long`.
  See `Translate.ReadOverrunsPastEdge`.
- **Get-op access check.** Get-op refuses only files opened `O_RDONLY`, so a write-only
  file may query its operator. See `Device.GetOp`, which fails exactly when the file is
  read-only.
- **Set-size and high bits.** Bits 48 and up of the set-size argument are dropped by the
  conversion to `int`. See `Properties.SetSizeIgnoresHighBits`.
- **Write regions on tall canvases.** The region's row is stored into an unsigned
  short. On a canvas more than 65536 rows tall, which the module parameters allow, a
  write below row 65536 reports a region near the top, and a file whose viewport holds
  the written cell is not woken. See `Properties.TallCanvasMissesWaiter`.
- **Empty writes.** A write of zero bytes below the end of the viewport still computes
  a region from its last position, `pos - 1`, and wakes the files that meet it. See
  `Properties.EmptyWriteWakes`.
- **Zero-width viewports.** A zero-width viewport whose column lies strictly inside
  another rectangle passes the intersection test, although the two share no cell. See
  `Geometry.ZeroWidthIntersects`.

## Model

| member | source | states |
|---|---|---|
| Geometry.Intersects | fb536/main.c:58-62 | the half-open overlap test; a passing pair has a positive width and a positive height between them, so two zero-width (or zero-height) rectangles never intersect |
| Geometry.IntersectsSymmetric | fb536/main.c:58-62 | the intersection test gives the same answer with its arguments swapped |
| Geometry.IntersectsIffSharedCell | fb536/main.c:58-62 | for non-empty rectangles the test holds exactly when some canvas cell lies in both |
| Geometry.EdgeAdjacentDisjoint | fb536/main.c:58-62 | rectangles that only touch along an edge, in x or in y, do not intersect |
| Geometry.ZeroWidthIntersects | fb536/main.c:58-62 | a zero-width rectangle inside another's columns passes the test yet shares no cell with it |
| Blend.Combine | fb536/main.c:249-272 | SET stores the written value; ADD stores min(255, e+v) and SUB stores max(0, e-v), with no wrap; every result is a byte |
| Blend.BitwiseBounded | fb536/main.c:263-271 | AND, OR and XOR of two k-bit values are k-bit values, so the three bitwise ops keep a byte a byte |
| Blend.OfCode | fb536/fb536.h:11-16 | the operator a code in 0..5 selects reports that same code back |
| Blend.OfCodeInverse | fb536/fb536.h:11-16 | decoding an operator's code gives the operator back |
| Blend.AddComposes | fb536/main.c:253-256 | two saturating ADD writes equal one ADD of the saturated sum |
| Blend.SubComposes | fb536/main.c:258-261 | two saturating SUB writes equal one SUB of the saturated sum |
| Blend.XorTwiceRestores | fb536/main.c:269-270 | an XOR write repeated with the same value restores the byte |
| Blend.XorAllOnes | fb536/main.c:269-270 | XOR with k one-bits turns a k-bit value a into 2^k - 1 - a, so an XOR write of 0xFF inverts the byte |
| Blend.RepeatedWrites | fb536/main.c:249-268 | repeating an AND, OR or SET write with the same value changes nothing more |
| Blend.BlendSamples | fb536/comprehensive_test.c:167-236 | the operator results the test program expects: 0x42+0x10, ADD 250 then ADD 100 onto 0x52 saturating to 255, 0x52-0x12, 10-50 saturating to 0, 0xF0 AND 0x0F, 0xF0 OR 0x0F, 0xAA XOR 0xFF |
| Translate.Target | fb536/main.c:238-247 | a position addresses a byte exactly when its canvas row is below H and its column below W; the byte is the row-major offset row*W + column, inside the W*H buffer |
| Translate.SameCell | fb536/main.c:238-247 | every cell of a viewport is named by the position that counts the cells before it row by row; that position lies below the viewport's area |
| Translate.TargetInjective | fb536/main.c:238-247 | two positions that address the same buffer byte are the same position |
| Translate.FittingTargets | fb536/main.c:238-247 | for a viewport inside the canvas every position below its area addresses a byte |
| Translate.NextChunk | fb536/main.c:151-167 | a copied chunk is non-empty, at most the remaining count, and lies inside the buffer |
| Translate.NextChunkCases | fb536/main.c:151-167 | an iteration breaks iff the row is below the canvas, spins iff the column equals W, and wraps iff the column exceeds W; otherwise it copies from row*W+col without passing the row's end or the canvas edge |
| Translate.RunTargets | fb536/main.c:151-169 | the bytes of a chunk are the buffer bytes its successive positions address |
| Translate.ReadChunks | fb536/main.c:150-177 | the loop never returns more bytes than the capped count |
| Translate.ReadChunksSound | fb536/main.c:150-177 | whatever the viewport, each byte the loop copies is the buffer byte its position addresses |
| Translate.ReadChunksShort | fb536/main.c:150-177 | with the viewport's columns inside the canvas the loop ends normally, and it returns min(count, rows-on-canvas positions - pos): it is short exactly when a row lies below the canvas |
| Translate.ReadChunksInside | fb536/main.c:150-177 | for a viewport inside the canvas the loop returns exactly the capped count, byte j being the canvas byte at position pos+j |
| Translate.ReadClipStalls | fb536/main.c:164-176 | when the column clip fires inside the canvas, the loop copies W - global_col bytes, fewer than count, then spins |
| Translate.ReadOverrunsPastEdge | fb536/main.c:160-165 | a column past the canvas edge makes the clipped length wrap |
| Translate.WindowSplit | fb536/main.c:174-176 | the bytes of adjacent position ranges concatenate, as the loop appends chunks |
| Translate.ReadLoop | fb536/main.c:150-177 | the loop as a method, for a viewport inside the canvas: it terminates with the position advanced by count and returns the canvas bytes at the positions read |
| Translate.Store | fb536/main.c:236-273 | the write loop over the payload, one byte per position; the canvas keeps its length |
| Translate.StorePlacement | fb536/main.c:236-273 | payload byte i is combined under the op into the byte position start+i addresses; positions outside the canvas are skipped; a byte no position addresses keeps its value |
| Translate.WriteRegion | fb536/main.c:225-233 | the region has the viewport's column range |
| Translate.WriteRegionRows | fb536/main.c:225-233 | for a viewport that ends by row 65536, the region spans rows y + start/w through y + last/w |
| Translate.WriteRegionCovers | fb536/main.c:225-233 | for a viewport that ends by row 65536, a non-empty write's region starts at the first addressed row, ends at the last one, and covers the cell of every position written |
| Translate.ToU64 | fb536/main.c:226 | an unsigned long keeps values below 2^64 and stays below 2^64 |
| Translate.ToU16 | fb536/main.c:232-233 | an unsigned short keeps values below 2^16 |
| Device.ToInt64 | fb536/main.c:295-296 | a wrapping loff_t sum keeps values in the signed 64-bit range, turns values in 2^63..2^64-1 negative and differs from its input by a multiple of 2^64 |
| Device.ToInt32 | fb536/main.c:321 | conversion to int keeps values below 2^31, lands in the int range and differs from its input by a multiple of 2^32 |
| Device.Notify | fb536/main.c:65-74 | a session's flag ends up set exactly when it was set before or the region reaches its viewport (the whole canvas when there is no region); viewports, ops and positions do not change |
| Device.Open | fb536/main.c:77-102 | a new file gets a fresh handle, viewport (0, 0, W, H) as unsigned shorts, op SET, position 0 and a clear flag; other files and the canvas are untouched |
| Device.Release | fb536/main.c:105-115 | closing removes exactly that file and touches nothing else |
| Device.Read | fb536/main.c:118-182 | at or past the viewport's area it returns nothing and changes nothing; otherwise at most count bytes, never past the area, and the position advances by what was copied; only the caller's position changes |
| Device.Write | fb536/main.c:185-285 | at or past the area it returns 0 and changes nothing; otherwise it returns min(count, area - position) even when bytes were skipped, and the position advances by that count; the writer keeps its viewport, op and access mode; other files change only in their wake flags |
| Device.Seek | fb536/main.c:288-302 | succeeds exactly for whence SET, CUR or END whose target off, position+off or area+off lies in 0..2^63-1, and then the position becomes that target and nothing else moves; otherwise (unknown whence, negative target, or a sum that wraps the signed 64-bit result) EINVAL with nothing changed |
| Device.Reset | fb536/main.c:313-318 | the canvas becomes all zeros with the same dimensions, and every file is woken |
| Device.SetSize | fb536/main.c:320-340 | succeeds exactly when both sides are in 1..10000, leaving a zeroed canvas of that size with every file woken and viewports and positions kept; otherwise EINVAL with nothing changed |
| Device.GetSize | fb536/main.c:342-346 | for a canvas within the set-size bounds the reply is width*65536 + height |
| Device.SetViewport | fb536/main.c:348-369 | succeeds exactly when the rectangle fits the current canvas; then it replaces the caller's viewport and sets only the caller's flag; otherwise EINVAL with nothing changed |
| Device.SetOp | fb536/main.c:378-390 | refused with EINVAL, nothing changed, on a read-only file or an argument above 5; otherwise the caller's op takes the argument's code, and nothing else changes |
| Device.GetOp | fb536/main.c:392-395 | refused exactly on a read-only file; otherwise returns a code in 0..5 that decodes to the caller's op |
| Device.Decode | fb536/fb536.h:18-27 | a command number that is recognised is the number of the request it is recognised as |
| Device.DecodeNumber | fb536/fb536.h:18-27 | every request is recognised from its own command number |
| Device.Ioctl | fb536/main.c:305-415 | an unknown command is ENOTTY with nothing changed; a failing command changes nothing; a wait clears the caller's flag before sleeping |
| Properties.WritePlacement | fb536/main.c:236-276 | after a write each addressed canvas byte holds the op's combination of its old value and the matching payload byte; every unaddressed byte is unchanged |
| Properties.WriteWakesOverlapping | fb536/main.c:225-279 | for a writer viewport that ends by row 65536, a write wakes every file whose viewport contains the cell of some byte the write addresses |
| Properties.WriteSparesDisjoint | fb536/main.c:225-279 | a file whose viewport misses the write's region stays asleep |
| Properties.TallCanvasMissesWaiter | fb536/main.c:225-279 | on a 1x100000 canvas a one-byte write at row 66000 reports the region (0, 464, 1, 1), so a file whose viewport holds row 66000 stays asleep |
| Properties.NotifyScenario | fb536/main.c:58-74 | with A at (0,0,100,100), B at (50,50,100,100) and C at (200,200,100,100), a one-row write by B wakes A and leaves C asleep |
| Properties.WriteRegionColumnsOnly | fb536/main.c:225-233 | a one-byte write at position 0 of (0,0,10,10) leaves a file at (50,0,10,10) asleep, although both viewports hold canvas row 0: the region spans only the writer's columns |
| Properties.EmptyWriteWakes | fb536/main.c:198-279 | a zero-byte write at position 5 of (0,0,10,10) leaves the canvas unchanged and returns 0, yet wakes a file with the same viewport |
| Properties.WriteSeenByOther | fb536/main.c:150-273 | all files share one row-major canvas: after a SET write, another file whose in-canvas viewport holds the cell of payload byte i seeks to that cell's position in its own viewport and reads that byte |
| Properties.ReadAfterWrite | fb536/main.c:150-177 | inside the canvas, a SET write, a seek back and a read of the same length return the payload, across viewport rows |
| Properties.ReadWindow | fb536/main.c:133-177 | inside the canvas a read of count bytes, with position + count within the area, returns the canvas bytes at positions position..position+count-1 and advances the position by count |
| Properties.ReadThenWriteBack | fb536/main.c:118-276 | inside the canvas under SET, reading count bytes, seeking back and writing them again leaves the canvas unchanged |
| Properties.WindowStoredBack | fb536/main.c:236-273 | a SET store of a window's own bytes at the positions they came from leaves the canvas unchanged |
| Properties.ReadAfterReset | fb536/main.c:313-318 | after a reset every byte read through a viewport inside the canvas is zero |
| Properties.EndOfFile | fb536/main.c:133-138 | after seeking to the end, reads and writes transfer nothing and change nothing |
| Properties.SeekComposes | fb536/main.c:293-301 | an absolute seek then a relative one equals one absolute seek to the sum |
| Properties.SeekRejects | fb536/main.c:293-299 | an unknown whence, or a target below zero for the given whence (off, position+off or area+off), is EINVAL with nothing changed |
| Properties.SeekNegativeScenario | fb536/comprehensive_test.c:251-267 | on a 100x100 viewport at position 10000, SEEK_END with 0 gives 10000 and SEEK_SET to -100 is refused with the position kept |
| Properties.SeekWrapRejects | fb536/main.c:293-301 | a seek to 2^63 - 1 succeeds, and a relative seek past it wraps negative and is refused |
| Properties.SizeRoundTrip | fb536/main.c:320-346 | set-size with both sides in 1..10000, then get-size, returns the argument |
| Properties.SetSizeAccepts | fb536/main.c:321-324 | for arguments below 2^47, set-size succeeds exactly when arg>>16 and arg&0xFFFF are both in 1..10000 |
| Properties.SetSizeIgnoresHighBits | fb536/main.c:321 | set-size treats arg and arg + k*2^48 alike |
| Properties.ViewportRoundTrip | fb536/main.c:348-376 | get-viewport after a successful set-viewport returns the rectangle that was set |
| Properties.OpRoundTrip | fb536/main.c:378-395 | get-op after set-op on a writable file returns the code that was set |
| Properties.OpenRelease | fb536/main.c:77-115 | opening then closing a file leaves the registry and the canvas as they were |
| Properties.SmallSizesAccepted | fb536/main.c:324 | 100x100 and 255x255 are accepted as well as 256x256 and 10000x10000; 10001x10001 and 20000x20000 are refused |
| Properties.ShrinkStillTransfers | fb536/main.c:135-140 | after a shrink from 500x500 to 300x300, a file opened before it still reads 10 bytes from its start, then writes the next 10 |
| Properties.ShrinkLongReadHangs | fb536/main.c:164-176 | in the same situation a 400-byte read never returns |

## Left out

- `FB536_IOCWAIT` blocking (fb536/main.c:403-408). The model records that a wait clears
  the caller's flag and then sleeps. It does not model sleeping, interruption, or the
  second clear after waking, because those are scheduler behaviour.
- The device mutex and `mutex_lock_interruptible` failing with `-ERESTARTSYS`. Each
  operation is atomic in the model.
- Module init and exit, cdev registration, the module parameters, and the initial
  canvas (fb536/main.c:18-32, 417 onward). These are kernel plumbing. The model takes
  any device whose buffer has width*height bytes.
- `copy_to_user` and `copy_from_user` faults (`-EFAULT`), and `kmalloc`, `kzalloc` or
  `vmalloc` failing (`-ENOMEM`). These are foreign calls. The model treats every copy
  and allocation as succeeding.
- `Device.Read`: for an overrun it does not say what `copy_to_user` does with a length
  near 2^64. The reply is `Overrun`, and the position advances only by the bytes copied
  before it.
- `Device.Read`: for a read that spins it records the position reached and the reply
  `Hangs`. The call never returns, and it spins holding the device mutex (taken at line
  127, released only at line 180). So every later open, release, read, write and locking
  ioctl blocks forever. A device returned with `Hangs` is a dead end: no later operation
  on it is meaningful, although the model lets one be applied.
- 64-bit overflow of `*f_pos + count` in read and write. Counts are unbounded naturals.
  The sum is formed only when the position is below the viewport's area, which is under
  2^32, and the kernel caps every read and write count at `MAX_RW_COUNT`, below 2^31,
  before the driver sees it. So the sum cannot wrap.
- The `int i` counter of the write loop. It stays below 2^31 because of the same
  `MAX_RW_COUNT` cap on the count, whatever the canvas size.
- The VFS refusing `read` on write-only files and `write` on read-only files. This
  happens before the driver is called.
- `Device.GetViewport` carries no contract of its own. It is a field read.
  `Properties.ViewportRoundTrip` states what it returns.
- The command numbers follow the asm-generic `_IOC` layout. Architectures with another
  layout give other numbers, with the same dispatch.

=== FILE: blend.dfy ===
/** Bytes, their bitwise operators, and the six write-combine operators a session applies
    to each canvas byte it writes. */
module Blend {

  /** An unsigned char. */
  type byte = x: int | 0 <= x < 256

  /** Bitwise AND on naturals, defined bit by bit from the least significant bit (likewise
      OR and XOR below). */
  function BitAnd(a: nat, b: nat): nat
    decreases a
  {
    if a == 0 || b == 0 then 0
    else 2 * BitAnd(a / 2, b / 2) + (if a % 2 == 1 && b % 2 == 1 then 1 else 0)
  }

  /** Bitwise OR. */
  function BitOr(a: nat, b: nat): nat
    decreases a + b
  {
    if a == 0 && b == 0 then 0
    else 2 * BitOr(a / 2, b / 2) + (if a % 2 == 1 || b % 2 == 1 then 1 else 0)
  }

  /** Bitwise XOR. */
  function BitXor(a: nat, b: nat): nat
    decreases a + b
  {
    if a == 0 && b == 0 then 0
    else 2 * BitXor(a / 2, b / 2) + (if a % 2 != b % 2 then 1 else 0)
  }

  /** 2 to the k. */
  function Pow2(k: nat): (p: nat)
    ensures p >= 1
    ensures k > 0 ==> p % 2 == 0
  {
    if k == 0 then 1 else 2 * Pow2(k - 1)
  }

  /** None of the three operators leaves the k-bit range of its operands. */
  lemma {:induction false} BitwiseBounded(a: nat, b: nat, k: nat)
    requires a < Pow2(k) && b < Pow2(k)
    ensures BitAnd(a, b) < Pow2(k)
    ensures BitOr(a, b) < Pow2(k)
    ensures BitXor(a, b) < Pow2(k)
  {
    if a == 0 && b == 0 {
    } else if k == 0 {
    } else {
      BitwiseBounded(a / 2, b / 2, k - 1);
    }
  }

  /** Bytes are the 8-bit range. */
  lemma ByteRange()
    ensures Pow2(8) == 256
  {
  }

  /** FB536_SET .. FB536_XOR of fb536.h, in code order 0..5. */
  datatype Op = Set | Add | Sub | And | Or | Xor

  /** The numeric code of an operator, as get-op reports it. */
  function Code(op: Op): (c: nat)
    ensures c <= 5
  {
    match op
    case Set => 0
    case Add => 1
    case Sub => 2
    case And => 3
    case Or => 4
    case Xor => 5
  }

  /** The operator a set-op argument in 0..5 selects. */
  function OfCode(c: nat): (op: Op)
    requires c <= 5
    ensures Code(op) == c
  {
    if c == 0 then Set
    else if c == 1 then Add
    else if c == 2 then Sub
    else if c == 3 then And
    else if c == 4 then Or
    else Xor
  }

  /** Code and OfCode are inverse on 0..5. */
  lemma OfCodeInverse(op: Op)
    ensures OfCode(Code(op)) == op
  {
  }

  /** The new value of canvas byte e after a write of v under op: the sum and the
      difference are formed in int and clamped at 255 and 0 rather than wrapped. */
  function Combine(op: Op, e: byte, v: byte): (r: byte)
    ensures op == Set ==> r == v
    ensures op == Add ==> r == Min255(e + v)
    ensures op == Sub ==> r == Max0(e - v)
  {
    ByteRange();
    BitwiseBounded(e, v, 8);
    match op
    case Set => v
    case Add => if e + v > 255 then 255 else e + v
    case Sub => if e - v < 0 then 0 else e - v
    case And => BitAnd(e, v)
    case Or => BitOr(e, v)
    case Xor => BitXor(e, v)
  }

  /** Saturation at the top of the byte range. */
  function Min255(x: int): int { if x < 255 then x else 255 }

  /** Saturation at the bottom of the byte range. */
  function Max0(x: int): int { if x < 0 then 0 else x }

  /** Two saturating additions equal one addition of the saturated sum. */
  lemma AddComposes(e: byte, u: byte, v: byte)
    ensures Combine(Add, Combine(Add, e, u), v) == Combine(Add, e, Min255(u + v))
  {
  }

  /** Two saturating subtractions equal one subtraction of the saturated sum. */
  lemma SubComposes(e: byte, u: byte, v: byte)
    ensures Combine(Sub, Combine(Sub, e, u), v) == Combine(Sub, e, Min255(u + v))
  {
  }

  /** XOR with the same value twice is the identity. */
  lemma {:induction false} XorInvolution(a: nat, b: nat)
    ensures BitXor(BitXor(a, b), b) == a
    decreases a + b
  {
    if a == 0 && b == 0 {
    } else {
      var x := BitXor(a, b);
      XorInvolution(a / 2, b / 2);
      assert x / 2 == BitXor(a / 2, b / 2) && x % 2 == (if a % 2 != b % 2 then 1 else 0);
    }
  }

  /** Writing the same value twice under XOR restores the byte. */
  lemma XorTwiceRestores(e: byte, v: byte)
    ensures Combine(Xor, Combine(Xor, e, v), v) == e
  {
    XorInvolution(e, v);
  }

  /** AND and OR with the same value a second time change nothing. */
  lemma {:induction false} AndOrIdempotent(a: nat, b: nat)
    ensures BitAnd(BitAnd(a, b), b) == BitAnd(a, b)
    ensures BitOr(BitOr(a, b), b) == BitOr(a, b)
    decreases a + b
  {
    if a == 0 && b == 0 {
    } else {
      AndOrIdempotent(a / 2, b / 2);
      var x := BitAnd(a, b);
      var y := BitOr(a, b);
      if a != 0 && b != 0 {
        assert x / 2 == BitAnd(a / 2, b / 2);
      }
      assert y / 2 == BitOr(a / 2, b / 2);
    }
  }

  /** AND and OR writes are idempotent; a SET write forgets the byte it overwrites. */
  lemma RepeatedWrites(e: byte, v: byte)
    ensures Combine(And, Combine(And, e, v), v) == Combine(And, e, v)
    ensures Combine(Or, Combine(Or, e, v), v) == Combine(Or, e, v)
    ensures Combine(Set, Combine(Set, e, v), v) == v
  {
    AndOrIdempotent(e, v);
  }

  /** The values the driver's test program expects from each operator. */
  lemma BlendSamples()
    ensures Combine(Add, 0x42, 0x10) == 0x52
    ensures Combine(Sub, 0x52, 0x12) == 0x40
    ensures Combine(And, 0xF0, 0x0F) == 0x00
    ensures Combine(Or, 0xF0, 0x0F) == 0xFF
    ensures Combine(Xor, 0xAA, 0xFF) == 0x55
    ensures Combine(Add, Combine(Add, 0x52, 250), 100) == 255
    ensures Combine(Sub, 10, 50) == 0
  {
    assert Combine(Add, 0x52, 250) == 255;
    BitSamples();
  }

  /** The bitwise operators on the test program's operands. */
  lemma BitSamples()
    ensures BitAnd(0xF0, 0x0F) == 0x00
    ensures BitOr(0xF0, 0x0F) == 0xFF
    ensures BitXor(0xAA, 0xFF) == 0x55
  {
    assert Pow2(8) == 0x100;
    XorAllOnes(0xAA, 8);
  }

  /** XOR with k one-bits complements a k-bit value. */
  lemma {:induction false} XorAllOnes(a: nat, k: nat)
    requires a < Pow2(k)
    ensures BitXor(a, Pow2(k) - 1) == Pow2(k) - 1 - a
  {
    if k > 0 {
      var m := Pow2(k) - 1;
      assert m / 2 == Pow2(k - 1) - 1 && m % 2 == 1;
      XorAllOnes(a / 2, k - 1);
    }
  }
}

=== FILE: device.dfy ===
/** The device record and its file operations: open, release, read, write, llseek and
    the non-blocking ioctl commands, each one atomic transition. The device mutex makes
    most of them so; seek, set-op and get-op take no lock, and the model assumes no
    concurrent use of the same open file for those. */
module Device {
  import opened Outcomes
  import opened Geometry
  import opened Blend
  import opened Translate

  /** Largest canvas side set-size accepts. */
  const MaxSide: int := 10000

  /** Identity of an open file (its struct file). */
  type Handle = nat

  /** The access mode the file was opened with (O_ACCMODE of its flags). */
  datatype Access = ReadOnly | WriteOnly | ReadWrite

  /** Per-open-file state (struct fb536_file_desc plus the file position). */
  datatype Session = Session(viewport: Viewport, op: Op, cursor: Position, woken: bool, access: Access)

  /** A file position: a non-negative loff_t. */
  type Position = x: int | 0 <= x < I64

  /** The canvas of width x height bytes, row-major, and the registry of open files.
      next is the handle the next open receives. */
  datatype Device = Device(width: nat, height: nat, data: seq<byte>, sessions: map<Handle, Session>, next: Handle)

  /** Result of one transition: the new device and what the call returns. */
  datatype Step<+T> = Step(dev: Device, reply: T)

  /** What a read returns: the bytes, or a call that never returns (the loop spins
      holding the lock), or an unsigned wrap of the chunk length that hands copy_to_user
      a length near 2^64. */
  datatype ReadReply = Bytes(bytes: seq<byte>) | Hangs | Overrun

  /** The buffer holds width*height bytes and every handle was issued. */
  predicate Valid(dev: Device)
  {
    |dev.data| == dev.width * dev.height && forall h :: h in dev.sessions ==> h < dev.next
  }

  /** The dimensions set-size accepts. */
  predicate Bounded(dev: Device)
  {
    1 <= dev.width <= MaxSide && 1 <= dev.height <= MaxSide
  }

  /** A canvas of n zero bytes. */
  function Zeros(n: nat): (r: seq<byte>)
    ensures |r| == n && forall i :: 0 <= i < n ==> r[i] == 0
  {
    seq(n, _ => 0)
  }

  /** Conversion of a non-negative value to int: reduction modulo 2^32 to two's complement. */
  function ToInt32(x: int): (r: int)
    ensures -0x8000_0000 <= r < 0x8000_0000
    ensures 0 <= x < 0x8000_0000 ==> r == x
    ensures (r - x) % 0x1_0000_0000 == 0
  {
    var y := x % 0x1_0000_0000;
    if y >= 0x8000_0000 then y - 0x1_0000_0000 else y
  }

  /** 2^63: loff_t, the type of file positions and seek offsets, is a signed 64-bit
      integer. */
  const I64: int := 0x8000_0000_0000_0000

  type i64 = x: int | -I64 <= x < I64

  /** Conversion to a signed 64-bit value: reduction modulo 2^64 to two's complement,
      which is what a wrapping loff_t sum, or an unsigned long converted to loff_t,
      computes. */
  function ToInt64(x: int): (r: i64)
    ensures -I64 <= x < I64 ==> r == x
    ensures I64 <= x < U64 ==> r == x - U64
    ensures (r - x) % U64 == 0
  {
    var y := x % U64;
    if y >= I64 then y - U64 else y
  }

  // ---------------------------------------------------------------------------
  // Notification

  /** The region reaches a session with viewport v: None stands for the whole canvas. */
  predicate Touches(region: Option<Viewport>, v: Viewport)
  {
    region.None? || Intersects(v, region.value)
  }

  /** Sets the wake flag of every session the region touches; nothing else changes. */
  function Notify(sessions: map<Handle, Session>, region: Option<Viewport>): (r: map<Handle, Session>)
    ensures r.Keys == sessions.Keys
    ensures forall h :: h in sessions ==>
      && r[h].viewport == sessions[h].viewport && r[h].op == sessions[h].op
      && r[h].cursor == sessions[h].cursor && r[h].access == sessions[h].access
      && (r[h].woken <==> sessions[h].woken || Touches(region, sessions[h].viewport))
  {
    map h | h in sessions :: if Touches(region, sessions[h].viewport) then sessions[h].(woken := true) else sessions[h]
  }

  // ---------------------------------------------------------------------------
  // Open and release

  /** A new file sees the whole canvas (each side stored into an unsigned short), writes
      with SET, starts at position 0 and has no pending wakeup. */
  function Open(dev: Device, access: Access): (r: Step<Handle>)
    requires Valid(dev)
    ensures Valid(r.dev) && r.reply !in dev.sessions && r.reply in r.dev.sessions
    ensures r.dev.width == dev.width && r.dev.height == dev.height && r.dev.data == dev.data
    ensures forall h :: h in dev.sessions ==> h in r.dev.sessions && r.dev.sessions[h] == dev.sessions[h]
    ensures r.dev.sessions.Keys == dev.sessions.Keys + {r.reply}
    ensures var s := r.dev.sessions[r.reply];
      && s.viewport.x == 0 && s.viewport.y == 0 && s.op == Set && s.cursor == 0 && !s.woken
      && s.access == access
      && (dev.width < U16 ==> s.viewport.width == dev.width)
      && (dev.height < U16 ==> s.viewport.height == dev.height)
  {
    var s := Session(Viewport(0, 0, ToU16(dev.width), ToU16(dev.height)), Set, 0, false, access);
    Step(dev.(sessions := dev.sessions[dev.next := s], next := dev.next + 1), dev.next)
  }

  /** Closing a file drops it from the registry and touches nothing else. */
  function Release(dev: Device, h: Handle): (r: Device)
    requires Valid(dev) && h in dev.sessions
    ensures Valid(r) && h !in r.sessions && r.sessions.Keys == dev.sessions.Keys - {h}
    ensures forall g :: g in r.sessions ==> r.sessions[g] == dev.sessions[g]
    ensures r.width == dev.width && r.height == dev.height && r.data == dev.data
  {
    dev.(sessions := dev.sessions - {h})
  }

  // ---------------------------------------------------------------------------
  // Read and write

  /** Reads up to count bytes from the file position: nothing at or past the viewport's
      area, otherwise the chunk loop over at most area - position bytes; the position
      advances by what was copied. */
  function Read(dev: Device, h: Handle, count: nat): (r: Step<ReadReply>)
    requires Valid(dev) && h in dev.sessions
    ensures Valid(r.dev) && r.dev.sessions.Keys == dev.sessions.Keys
    ensures r.dev.width == dev.width && r.dev.height == dev.height && r.dev.data == dev.data
    ensures forall g :: g in dev.sessions && g != h ==> r.dev.sessions[g] == dev.sessions[g]
    ensures var s := dev.sessions[h];
      && r.dev.sessions[h] == s.(cursor := r.dev.sessions[h].cursor)
      && (s.cursor >= Area(s.viewport) ==> r == Step(dev, Bytes([])))
      && (r.reply.Bytes? ==> r.dev.sessions[h].cursor == s.cursor + |r.reply.bytes|)
      && (r.reply.Bytes? ==> |r.reply.bytes| <= count)
      && (s.cursor < Area(s.viewport) ==> r.dev.sessions[h].cursor <= Area(s.viewport))
  {
    var s := dev.sessions[h];
    var size := Area(s.viewport);
    if s.cursor >= size then Step(dev, Bytes([]))
    else
      AreaPositive(s.viewport, s.cursor);
      AreaBound(s.viewport);
      var n := Min(count, size - s.cursor);
      var out := ReadChunks(dev.data, dev.width, dev.height, s.viewport, s.cursor, n);
      var dev' := dev.(sessions := dev.sessions[h := s.(cursor := s.cursor + |out.bytes|)]);
      match out
      case Copied(b) => Step(dev', Bytes(b))
      case Spins(_) => Step(dev', Hangs)
      case Overruns(_) => Step(dev', Overrun)
  }

  /** Writes the payload from the file position: nothing at or past the viewport's area,
      otherwise the first min(|payload|, area - position) bytes are combined into the
      canvas under the session's op, the position advances by that count, and every
      session whose viewport meets the write's region is woken. The region is the
      writer's viewport columns over the rows from the first position written to the
      last, its top row and height each stored in 16 bits; a write of zero bytes still
      reports a region. */
  function Write(dev: Device, h: Handle, payload: seq<byte>): (r: Step<nat>)
    requires Valid(dev) && h in dev.sessions
    ensures Valid(r.dev) && r.dev.sessions.Keys == dev.sessions.Keys
    ensures r.dev.width == dev.width && r.dev.height == dev.height
    ensures var s := dev.sessions[h];
      && (s.cursor >= Area(s.viewport) ==> r == Step(dev, 0))
      && (s.cursor < Area(s.viewport) ==> r.reply == Min(|payload|, Area(s.viewport) - s.cursor))
      && r.dev.sessions[h].cursor == s.cursor + r.reply
      && r.dev.sessions[h].viewport == s.viewport && r.dev.sessions[h].op == s.op
      && r.dev.sessions[h].access == s.access
    ensures forall g :: g in dev.sessions && g != h ==>
      r.dev.sessions[g] == dev.sessions[g].(woken := r.dev.sessions[g].woken)
  {
    var s := dev.sessions[h];
    var size := Area(s.viewport);
    if s.cursor >= size then Step(dev, 0)
    else
      AreaPositive(s.viewport, s.cursor);
      AreaBound(s.viewport);
      var n := Min(|payload|, size - s.cursor);
      var data := Store(dev.data, dev.width, dev.height, s.viewport, s.op, s.cursor, payload[..n]);
      var region := WriteRegion(s.viewport, s.cursor, n);
      var moved := dev.sessions[h := s.(cursor := s.cursor + n)];
      Step(dev.(data := data, sessions := Notify(moved, Some(region))), n)
  }

  // ---------------------------------------------------------------------------
  // Seek

  const SeekSet: int := 0
  const SeekCur: int := 1
  const SeekEnd: int := 2

  /** Moves the file position to off, position + off or area + off, each sum taken as a
      wrapping 64-bit loff_t; a result that is negative (including one that wrapped past
      2^63 - 1) or an unknown whence is EINVAL and leaves the position alone. */
  function Seek(dev: Device, h: Handle, off: i64, whence: int): (r: Step<Result<Position>>)
    requires Valid(dev) && h in dev.sessions
    ensures Valid(r.dev) && r.dev.sessions.Keys == dev.sessions.Keys
    ensures r.dev.width == dev.width && r.dev.height == dev.height && r.dev.data == dev.data
    ensures forall g :: g in dev.sessions && g != h ==> r.dev.sessions[g] == dev.sessions[g]
    ensures r.reply.Err? ==> r.dev == dev && r.reply.errno == EINVAL
    ensures r.reply.Ok? ==> r.dev.sessions[h] == dev.sessions[h].(cursor := r.reply.value)
    ensures var s := dev.sessions[h];
      r.reply.Ok? <==>
        || (whence == SeekSet && off >= 0)
        || (whence == SeekCur && 0 <= s.cursor + off < I64)
        || (whence == SeekEnd && 0 <= Area(s.viewport) + off < I64)
    ensures var s := dev.sessions[h];
      r.reply.Ok? ==>
        r.reply.value == if whence == SeekSet then off else if whence == SeekCur then s.cursor + off else Area(s.viewport) + off
  {
    var s := dev.sessions[h];
    var base :=
      if whence == SeekSet then Some(0)
      else if whence == SeekCur then Some(s.cursor)
      else if whence == SeekEnd then Some(Area(s.viewport))
      else None;
    AreaBound(s.viewport);
    if base.None? then Step(dev, Err(EINVAL))
    else
      var newpos := ToInt64(base.value + off);
      if newpos < 0 then Step(dev, Err(EINVAL))
      else Step(dev.(sessions := dev.sessions[h := s.(cursor := newpos)]), Ok(newpos))
  }

  // ---------------------------------------------------------------------------
  // Control commands

  /** FB536_IOCRESET: the canvas becomes all zeros, same dimensions, and every session
      is woken. */
  function Reset(dev: Device): (r: Device)
    requires Valid(dev)
    ensures Valid(r) && r.width == dev.width && r.height == dev.height
    ensures forall i :: 0 <= i < |r.data| ==> r.data[i] == 0
    ensures r.sessions.Keys == dev.sessions.Keys
    ensures forall h :: h in r.sessions ==> r.sessions[h] == dev.sessions[h].(woken := true)
  {
    dev.(data := Zeros(|dev.data|), sessions := Notify(dev.sessions, None))
  }

  /** The width set-size reads from its argument: bits 16 and up, stored into an int. */
  function SizeWidth(arg: nat): int
  {
    ToInt32(arg / U16)
  }

  /** The height set-size reads from its argument: the low 16 bits. */
  function SizeHeight(arg: nat): u16
  {
    arg % U16
  }

  /** FB536_IOCTSETSIZE: a width and a height in 1..10000 replace the canvas by a zeroed
      one of that size and wake every session; viewports and positions are kept as they
      are. Any other argument is EINVAL with nothing changed. */
  function SetSize(dev: Device, arg: nat): (r: Step<Result<int>>)
    requires Valid(dev) && arg < U64
    ensures Valid(r.dev) && r.dev.sessions.Keys == dev.sessions.Keys
    ensures r.reply.Err? ==> r.dev == dev && r.reply.errno == EINVAL
    ensures r.reply.Ok? ==>
      && Bounded(r.dev) && r.reply.value == 0
      && r.dev.width == SizeWidth(arg) && r.dev.height == SizeHeight(arg)
      && (forall i :: 0 <= i < |r.dev.data| ==> r.dev.data[i] == 0)
      && (forall h :: h in r.dev.sessions ==> r.dev.sessions[h] == dev.sessions[h].(woken := true))
    ensures r.reply.Ok? <==> 1 <= SizeWidth(arg) <= MaxSide && 1 <= SizeHeight(arg) <= MaxSide
  {
    var w := SizeWidth(arg);
    var ht := SizeHeight(arg);
    if w < 1 || w > MaxSide || ht < 1 || ht > MaxSide then Step(dev, Err(EINVAL))
    else
      var dev' := Device(w, ht, Zeros(w * ht), Notify(dev.sessions, None), dev.next);
      Step(dev', Ok(0))
  }

  /** FB536_IOCQGETSIZE: (width << 16) | (height & 0xFFFF) as an int. The shifted width
      has its low 16 bits clear, so the or is a sum. For a bounded canvas it is exactly
      width * 65536 + height. */
  function GetSize(dev: Device): (r: int)
    ensures Bounded(dev) ==> r == dev.width * U16 + dev.height
  {
    ToInt32((dev.width * U16) % U64 + dev.height % U16)
  }

  /** FB536_IOCSETVIEWPORT: accepted exactly when the rectangle lies inside the current
      canvas; then it replaces the caller's viewport and sets the caller's own wake flag.
      The file position is kept. */
  function SetViewport(dev: Device, h: Handle, vp: Viewport): (r: Step<Result<int>>)
    requires Valid(dev) && h in dev.sessions
    ensures Valid(r.dev) && r.dev.sessions.Keys == dev.sessions.Keys
    ensures r.dev.width == dev.width && r.dev.height == dev.height && r.dev.data == dev.data
    ensures r.reply.Ok? <==> FitsIn(vp, dev.width, dev.height)
    ensures r.reply.Err? ==> r.dev == dev && r.reply.errno == EINVAL
    ensures r.reply.Ok? ==> r.dev.sessions[h] == dev.sessions[h].(viewport := vp, woken := true)
    ensures forall g :: g in dev.sessions && g != h ==> r.dev.sessions[g] == dev.sessions[g]
  {
    var s := dev.sessions[h];
    if vp.x + vp.width > dev.width || vp.y + vp.height > dev.height then Step(dev, Err(EINVAL))
    else Step(dev.(sessions := dev.sessions[h := s.(viewport := vp, woken := true)]), Ok(0))
  }

  /** FB536_IOCGETVIEWPORT: the caller's viewport; nothing changes. */
  function GetViewport(dev: Device, h: Handle): (r: Viewport)
    requires h in dev.sessions
  {
    dev.sessions[h].viewport
  }

  /** FB536_IOCTSETOP: refused with EINVAL on a read-only file or for an argument above 5;
      otherwise the caller's op becomes the one the argument codes. */
  function SetOp(dev: Device, h: Handle, arg: nat): (r: Step<Result<int>>)
    requires Valid(dev) && h in dev.sessions
    ensures Valid(r.dev) && r.dev.sessions.Keys == dev.sessions.Keys
    ensures r.dev.width == dev.width && r.dev.height == dev.height && r.dev.data == dev.data
    ensures r.reply.Ok? <==> dev.sessions[h].access != ReadOnly && arg <= 5
    ensures r.reply.Err? ==> r.dev == dev && r.reply.errno == EINVAL
    ensures r.reply.Ok? ==> Code(r.dev.sessions[h].op) == arg
    ensures r.dev.sessions[h] == dev.sessions[h].(op := r.dev.sessions[h].op)
    ensures forall g :: g in dev.sessions && g != h ==> r.dev.sessions[g] == dev.sessions[g]
  {
    var s := dev.sessions[h];
    if s.access == ReadOnly then Step(dev, Err(EINVAL))
    else if arg > 5 then Step(dev, Err(EINVAL))
    else Step(dev.(sessions := dev.sessions[h := s.(op := OfCode(arg))]), Ok(0))
  }

  /** FB536_IOCQGETOP: the caller's op code, refused with EINVAL on a read-only file. */
  function GetOp(dev: Device, h: Handle): (r: Result<int>)
    requires h in dev.sessions
    ensures r.Err? <==> dev.sessions[h].access == ReadOnly
    ensures r.Ok? ==> 0 <= r.value <= 5 && OfCode(r.value) == dev.sessions[h].op
  {
    if dev.sessions[h].access == ReadOnly then Err(EINVAL)
    else OfCodeInverse(dev.sessions[h].op); Ok(Code(dev.sessions[h].op))
  }

  // ---------------------------------------------------------------------------
  // ioctl dispatch

  /** The requests fb536.h defines. */
  datatype Request =
    | IocReset | IocSetSize | IocGetSize | IocSetViewport | IocGetViewport
    | IocSetOp | IocGetOp | IocWait

  /** The ioctl type letter 'F'. */
  const IocMagic: nat := 0x46

  /** sizeof(struct fb_viewport): four unsigned shorts. */
  const ViewportBytes: nat := 8

  /** _IOC(dir, 'F', nr, size) in the asm-generic layout: sequence number in bits 0-7,
      type in bits 8-15, argument size in bits 16-29, direction in bits 30-31 (1 for a
      write to the driver, 2 for a read from it). */
  function IocNumber(dir: nat, nr: nat, size: nat): nat
  {
    dir * 0x4000_0000 + size * 0x1_0000 + IocMagic * 0x100 + nr
  }

  /** The command number of a request. */
  function Number(q: Request): nat
  {
    match q
    case IocReset => IocNumber(0, 0, 0)
    case IocSetSize => IocNumber(0, 1, 0)
    case IocGetSize => IocNumber(0, 2, 0)
    case IocSetViewport => IocNumber(1, 3, ViewportBytes)
    case IocGetViewport => IocNumber(2, 4, ViewportBytes)
    case IocSetOp => IocNumber(0, 5, 0)
    case IocGetOp => IocNumber(0, 6, 0)
    case IocWait => IocNumber(0, 7, 0)
  }

  /** The request a command number names, if any (the switch of fb536_ioctl). */
  function Decode(cmd: nat): (r: Option<Request>)
    ensures r.Some? ==> Number(r.value) == cmd
  {
    if cmd == Number(IocReset) then Some(IocReset)
    else if cmd == Number(IocSetSize) then Some(IocSetSize)
    else if cmd == Number(IocGetSize) then Some(IocGetSize)
    else if cmd == Number(IocSetViewport) then Some(IocSetViewport)
    else if cmd == Number(IocGetViewport) then Some(IocGetViewport)
    else if cmd == Number(IocSetOp) then Some(IocSetOp)
    else if cmd == Number(IocGetOp) then Some(IocGetOp)
    else if cmd == Number(IocWait) then Some(IocWait)
    else None
  }

  /** Every request is recognised by its own number, so no two share one. */
  lemma DecodeNumber(q: Request)
    ensures Decode(Number(q)) == Some(q)
  {
  }

  /** What an ioctl call hands back: its return value, the viewport get-viewport copies
      out to the caller, or a wait that has cleared the caller's flag and now sleeps
      until it is set again. */
  datatype IoctlReply = Returns(result: Result<int>) | ViewportOut(viewport: Viewport) | Waits

  /** fb536_ioctl: an unknown command is ENOTTY with nothing changed; otherwise the
      request's own transition. user is the struct set-viewport copies in. */
  function Ioctl(dev: Device, h: Handle, cmd: nat, arg: nat, user: Viewport): (r: Step<IoctlReply>)
    requires Valid(dev) && h in dev.sessions && arg < U64
    ensures Valid(r.dev) && r.dev.sessions.Keys == dev.sessions.Keys
    ensures Decode(cmd).None? ==> r == Step(dev, Returns(Err(ENOTTY)))
    ensures r.reply.Returns? && r.reply.result.Err? ==> r.dev == dev
    ensures r.reply.Waits? <==> cmd == Number(IocWait)
    ensures r.reply.Waits? ==> !r.dev.sessions[h].woken
  {
    match Decode(cmd)
    case None => Step(dev, Returns(Err(ENOTTY)))
    case Some(q) =>
      match q
      case IocReset => Step(Reset(dev), Returns(Ok(0)))
      case IocSetSize => var s := SetSize(dev, arg); Step(s.dev, Returns(s.reply))
      case IocGetSize => Step(dev, Returns(Ok(GetSize(dev))))
      case IocSetViewport => var s := SetViewport(dev, h, user); Step(s.dev, Returns(s.reply))
      case IocGetViewport => Step(dev, ViewportOut(GetViewport(dev, h)))
      case IocSetOp => var s := SetOp(dev, h, arg); Step(s.dev, Returns(s.reply))
      case IocGetOp => Step(dev, Returns(GetOp(dev, h)))
      case IocWait => Step(dev.(sessions := dev.sessions[h := dev.sessions[h].(woken := false)]), Waits)
  }
}

=== FILE: geometry.dfy ===
/** Viewports (struct fb_viewport) and the rectangle-intersection test used for selective wakeup. */
module Geometry {

  const U16: int := 0x1_0000

  /** An unsigned short. */
  type u16 = x: int | 0 <= x < U16

  /** A rectangle of the canvas: column x, row y, width columns and height rows. */
  datatype Viewport = Viewport(x: u16, y: u16, width: u16, height: u16)

  /** Number of viewport-linear positions; a session's cursor reaches end-of-file here. */
  function Area(v: Viewport): nat
  {
    v.width * v.height
  }

  /** The canvas cell at column c, row r lies inside v. */
  predicate Covers(v: Viewport, c: int, r: int)
  {
    v.x <= c < v.x + v.width && v.y <= r < v.y + v.height
  }

  /** v contains at least one cell. */
  predicate NonEmpty(v: Viewport)
  {
    v.width > 0 && v.height > 0
  }

  /** The half-open overlap test of the driver: sharing an edge is not intersecting.
      Two rectangles of zero width (or of zero height) never pass it. */
  predicate Intersects(a: Viewport, b: Viewport): (r: bool)
    ensures r ==> a.width > 0 || b.width > 0
    ensures r ==> a.height > 0 || b.height > 0
  {
    !(a.x >= b.x + b.width || b.x >= a.x + a.width) &&
    !(a.y >= b.y + b.height || b.y >= a.y + a.height)
  }

  /** The check set-viewport makes against the current canvas of w columns and h rows. */
  predicate FitsIn(v: Viewport, w: int, h: int)
  {
    v.x + v.width <= w && v.y + v.height <= h
  }

  /** The test does not depend on the order of its arguments. */
  lemma IntersectsSymmetric(a: Viewport, b: Viewport)
    ensures Intersects(a, b) <==> Intersects(b, a)
  {
  }

  /** For non-empty rectangles the test is exactly "some canvas cell lies in both". */
  lemma IntersectsIffSharedCell(a: Viewport, b: Viewport)
    requires NonEmpty(a) && NonEmpty(b)
    ensures Intersects(a, b) <==> exists c, r :: Covers(a, c, r) && Covers(b, c, r)
  {
    if Intersects(a, b) {
      var c := if a.x < b.x then b.x else a.x;
      var r := if a.y < b.y then b.y else a.y;
      assert Covers(a, c, r) && Covers(b, c, r);
    }
  }

  /** Rectangles that only touch along a vertical or a horizontal edge do not intersect. */
  lemma EdgeAdjacentDisjoint(a: Viewport, b: Viewport)
    requires a.x == b.x + b.width || b.x == a.x + a.width ||
             a.y == b.y + b.height || b.y == a.y + a.height
    ensures !Intersects(a, b)
  {
  }

  /** A zero-width rectangle strictly between the other's columns still passes the test,
      though it shares no cell with it. */
  lemma ZeroWidthIntersects(a: Viewport, b: Viewport)
    requires a.width == 0 && b.x < a.x < b.x + b.width
    requires a.y < b.y + b.height && b.y < a.y + a.height
    ensures Intersects(a, b)
    ensures !exists c, r :: Covers(a, c, r) && Covers(b, c, r)
  {
  }
}

=== FILE: outcomes.dfy ===
/** Optional values, kernel error numbers and results shared by the rest of the model. */
module Outcomes {

  /** A value that may be absent (a NULL pointer in the driver). */
  datatype Option<+T> = None | Some(value: T)

  /** The errno values the driver's file operations return (negated in the driver). */
  datatype Errno = EINVAL | ENOTTY

  /** Outcome of an operation that yields a value or fails with an errno. */
  datatype Result<+T> = Ok(value: T) | Err(errno: Errno)

  /** The smaller of two integers. */
  function Min(a: int, b: int): int
  {
    if a < b then a else b
  }
}

=== FILE: properties.dfy ===
/** Properties that relate several file operations, and scenarios in which the driver's
    behaviour differs from what its test programs expect. */
module Properties {
  import opened Outcomes
  import opened Geometry
  import opened Blend
  import opened Translate
  import opened Device

  // ---------------------------------------------------------------------------
  // Writes

  /** out is data after the first n payload bytes were combined under op from viewport
      position start: each addressed byte holds the op's combination of its old value and
      the matching payload byte, and every byte no position addresses is unchanged. */
  predicate Placed(data: seq<byte>, out: seq<byte>, W: nat, H: nat, v: Viewport, op: Op, start: nat, payload: seq<byte>, n: nat)
    requires |data| == W * H && |out| == |data| && v.width > 0 && n <= |payload|
  {
    && (forall p :: start <= p < start + n && Target(v, W, H, p).Some? ==>
          var k := Target(v, W, H, p).value;
          out[k] == Combine(op, data[k], payload[p - start]))
    && (forall k :: 0 <= k < |data| && !Addressed(v, W, H, start, n, k) ==> out[k] == data[k])
  }

  /** A write combines payload byte i into the canvas byte its position addresses under
      the writer's op, skips positions outside the canvas, and leaves every byte no
      position addresses as it was. */
  lemma WritePlacement(dev: Device, h: Handle, payload: seq<byte>)
    requires Valid(dev) && h in dev.sessions
    requires dev.sessions[h].cursor < Area(dev.sessions[h].viewport)
    ensures dev.sessions[h].viewport.width > 0 && Write(dev, h, payload).reply <= |payload|
    ensures var s := dev.sessions[h];
      var r := Write(dev, h, payload);
      Placed(dev.data, r.dev.data, dev.width, dev.height, s.viewport, s.op, s.cursor, payload, r.reply)
  {
    var s := dev.sessions[h];
    var r := Write(dev, h, payload);
    WriteStores(dev, h, payload);
    StoredPrefix(dev.data, dev.width, dev.height, s.viewport, s.op, s.cursor, payload, r.reply);
  }

  /** Placement and frame of the store loop run over the first n payload bytes, stated
      against the whole payload. */
  lemma StoredPrefix(data: seq<byte>, W: nat, H: nat, v: Viewport, op: Op, start: nat, payload: seq<byte>, n: nat)
    requires |data| == W * H && v.width > 0 && n <= |payload|
    ensures Placed(data, Store(data, W, H, v, op, start, payload[..n]), W, H, v, op, start, payload, n)
  {
    var accepted := payload[..n];
    StorePlacement(data, W, H, v, op, start, accepted);
    assert forall j :: 0 <= j < n ==> accepted[j] == payload[j];
  }

  /** Below the end of the viewport a write leaves the canvas as the store loop leaves it
      for the bytes it accepts. */
  lemma WriteStores(dev: Device, h: Handle, payload: seq<byte>)
    requires Valid(dev) && h in dev.sessions
    requires dev.sessions[h].cursor < Area(dev.sessions[h].viewport)
    ensures var s := dev.sessions[h];
      var r := Write(dev, h, payload);
      && s.viewport.width > 0 && r.reply <= |payload|
      && r.dev.data == Store(dev.data, dev.width, dev.height, s.viewport, s.op, s.cursor, payload[..r.reply])
  {
    AreaPositive(dev.sessions[h].viewport, dev.sessions[h].cursor);
  }

  /** Every session whose viewport holds the cell of some byte a write addresses is
      woken by that write. */
  lemma WriteWakesOverlapping(dev: Device, h: Handle, payload: seq<byte>, g: Handle)
    requires Valid(dev) && h in dev.sessions && g in dev.sessions
    requires dev.sessions[h].cursor < Area(dev.sessions[h].viewport) && |payload| > 0
    requires dev.sessions[h].viewport.y + dev.sessions[h].viewport.height <= U16
    ensures var s := dev.sessions[h];
      var r := Write(dev, h, payload);
      && s.viewport.width > 0
      && ((exists p :: s.cursor <= p < s.cursor + r.reply &&
             Covers(dev.sessions[g].viewport, Col(s.viewport, p), Row(s.viewport, p)))
          ==> r.dev.sessions[g].woken)
  {
    var s := dev.sessions[h];
    var v := s.viewport;
    AreaPositive(v, s.cursor);
    var n := Min(|payload|, Area(v) - s.cursor);
    var region := WriteRegion(v, s.cursor, n);
    WriteRegionCovers(v, s.cursor, n);
    var r := Write(dev, h, payload);
    if exists p :: s.cursor <= p < s.cursor + r.reply && Covers(dev.sessions[g].viewport, Col(v, p), Row(v, p)) {
      var p :| s.cursor <= p < s.cursor + r.reply && Covers(dev.sessions[g].viewport, Col(v, p), Row(v, p));
      assert Covers(region, Col(v, p), Row(v, p));
      assert Intersects(dev.sessions[g].viewport, region);
    }
  }

  /** A write wakes no session whose viewport misses its region and that was not already
      woken. */
  lemma WriteSparesDisjoint(dev: Device, h: Handle, payload: seq<byte>, g: Handle)
    requires Valid(dev) && h in dev.sessions && g in dev.sessions && !dev.sessions[g].woken
    requires dev.sessions[h].cursor < Area(dev.sessions[h].viewport)
    ensures var s := dev.sessions[h];
      && s.viewport.width > 0
      && (!Intersects(dev.sessions[g].viewport, WriteRegion(s.viewport, s.cursor, Min(|payload|, Area(s.viewport) - s.cursor)))
          ==> !Write(dev, h, payload).dev.sessions[g].woken)
  {
    AreaPositive(dev.sessions[h].viewport, dev.sessions[h].cursor);
  }

  /** On a canvas more than 65536 rows tall the region's row wraps as an unsigned short.
      With W = 1 and H = 100000, a one-byte write at position 6000 of viewport
      (0, 60000, 1, 10000) lands on row 66000, but its region is reported at row 464, so
      a session whose viewport (0, 65000, 1, 5000) holds row 66000 is not woken. */
  lemma TallCanvasMissesWaiter(dev: Device, h: Handle, g: Handle, b: byte)
    requires Valid(dev) && dev.width == 1 && dev.height == 100000
    requires h in dev.sessions && g in dev.sessions && !dev.sessions[g].woken
    requires dev.sessions[h].viewport == Viewport(0, 60000, 1, 10000) && dev.sessions[h].cursor == 6000
    requires dev.sessions[g].viewport == Viewport(0, 65000, 1, 5000)
    ensures Target(dev.sessions[h].viewport, 1, 100000, 6000) == Some(66000)
    ensures Covers(dev.sessions[g].viewport, 0, 66000)
    ensures WriteRegion(dev.sessions[h].viewport, 6000, 1) == Viewport(0, 464, 1, 1)
    ensures !Write(dev, h, [b]).dev.sessions[g].woken
  {
    assert ToU16(60000 + 6000) == 464;
  }

  /** Session A at (0,0,100,100), B at (50,50,100,100), C at (200,200,100,100): a write of
      up to one row by B from its start wakes A and leaves C waiting. */
  lemma NotifyScenario(dev: Device, a: Handle, b: Handle, c: Handle, payload: seq<byte>)
    requires Valid(dev) && a in dev.sessions && b in dev.sessions && c in dev.sessions
    requires dev.sessions[a].viewport == Viewport(0, 0, 100, 100)
    requires dev.sessions[b].viewport == Viewport(50, 50, 100, 100) && dev.sessions[b].cursor == 0
    requires dev.sessions[c].viewport == Viewport(200, 200, 100, 100) && !dev.sessions[c].woken
    requires 0 < |payload| <= 100
    ensures Write(dev, b, payload).dev.sessions[a].woken
    ensures !Write(dev, b, payload).dev.sessions[c].woken
  {
    var region := WriteRegion(dev.sessions[b].viewport, 0, |payload|);
    WriteRegionRows(dev.sessions[b].viewport, 0, |payload|);
    assert region == Viewport(50, 50, 100, 1);
    assert Intersects(dev.sessions[a].viewport, region);
    assert !Intersects(dev.sessions[c].viewport, region);
  }

  /** The region spans the writer's columns only: a one-byte write at position 0 of
      viewport (0, 0, 10, 10) leaves asleep a session at (50, 0, 10, 10), although both
      viewports hold canvas row 0. */
  lemma WriteRegionColumnsOnly(dev: Device, h: Handle, g: Handle, b: byte)
    requires Valid(dev) && h in dev.sessions && g in dev.sessions && !dev.sessions[g].woken
    requires dev.sessions[h].viewport == Viewport(0, 0, 10, 10) && dev.sessions[h].cursor == 0
    requires dev.sessions[g].viewport == Viewport(50, 0, 10, 10)
    ensures Covers(dev.sessions[h].viewport, 0, 0) && Covers(dev.sessions[g].viewport, 50, 0)
    ensures !Write(dev, h, [b]).dev.sessions[g].woken
  {
    var v := dev.sessions[h].viewport;
    assert Area(v) == 100 && Min(|[b]|, Area(v) - 0) == 1;
    assert WriteRegion(v, 0, 1) == Viewport(0, 0, 10, 1);
    assert !Intersects(dev.sessions[g].viewport, Viewport(0, 0, 10, 1));
    WriteSparesDisjoint(dev, h, [b], g);
  }

  /** A write of zero bytes below the end of the viewport changes no byte, yet reports a
      region and wakes the sessions it meets: at position 5 of viewport (0, 0, 10, 10) the
      last position 5 - 1 lies on row 0, so the region is row 0 and a session with the
      same viewport is woken. */
  lemma EmptyWriteWakes(dev: Device, h: Handle, g: Handle)
    requires Valid(dev) && h in dev.sessions && g in dev.sessions && !dev.sessions[g].woken
    requires dev.sessions[h].viewport == Viewport(0, 0, 10, 10) && dev.sessions[h].cursor == 5
    requires dev.sessions[g].viewport == Viewport(0, 0, 10, 10)
    ensures Write(dev, h, []).reply == 0 && Write(dev, h, []).dev.data == dev.data
    ensures Write(dev, h, []).dev.sessions[g].woken
  {
    assert WriteRegion(dev.sessions[h].viewport, 5, 0) == Viewport(0, 0, 10, 1);
  }

  // ---------------------------------------------------------------------------
  // Reads

  /** Inside the canvas a SET write, a seek back to where it started and a read of the
      same length give back the payload, across viewport rows. */
  lemma ReadAfterWrite(dev: Device, h: Handle, payload: seq<byte>)
    requires Valid(dev) && h in dev.sessions && dev.sessions[h].op == Set
    requires FitsIn(dev.sessions[h].viewport, dev.width, dev.height)
    requires dev.sessions[h].cursor + |payload| <= Area(dev.sessions[h].viewport)
    ensures var start := dev.sessions[h].cursor;
      var d1 := Write(dev, h, payload).dev;
      var d2 := Seek(d1, h, start, SeekSet).dev;
      var r := Read(d2, h, |payload|);
      r.reply == Bytes(payload) && r.dev.sessions[h].cursor == start + |payload|
  {
    var s := dev.sessions[h];
    var v := s.viewport;
    var start := s.cursor;
    if |payload| > 0 {
      AreaPositive(v, start);
      var d2 := Seek(Write(dev, h, payload).dev, h, start, SeekSet).dev;
      WriteThenSeekBack(dev, h, payload);
      StoredWindow(dev.data, dev.width, dev.height, v, start, payload);
      ReadStored(d2, h, payload);
    }
  }

  /** All sessions share one row-major canvas: after a SET write by h, another session
      g whose viewport holds the cell of payload byte i reads that byte back at the
      position of that cell in its own viewport. */
  lemma WriteSeenByOther(dev: Device, h: Handle, g: Handle, payload: seq<byte>, i: nat)
    requires Valid(dev) && h in dev.sessions && g in dev.sessions && h != g
    requires dev.sessions[h].op == Set
    requires FitsIn(dev.sessions[h].viewport, dev.width, dev.height)
    requires FitsIn(dev.sessions[g].viewport, dev.width, dev.height)
    requires dev.sessions[h].cursor + |payload| <= Area(dev.sessions[h].viewport)
    requires i < |payload|
    requires var v := dev.sessions[h].viewport; var p := dev.sessions[h].cursor + i;
      Covers(dev.sessions[g].viewport, Col(v, p), Row(v, p))
    ensures var v := dev.sessions[h].viewport; var p := dev.sessions[h].cursor + i;
      var q := CellPosition(dev.sessions[g].viewport, Col(v, p), Row(v, p));
      0 <= q < I64 && Read(Seek(Write(dev, h, payload).dev, g, q, SeekSet).dev, g, 1).reply == Bytes([payload[i]])
  {
    var s := dev.sessions[h];
    var v, u := s.viewport, dev.sessions[g].viewport;
    var p := s.cursor + i;
    AreaPositive(v, s.cursor);
    var q := CellPosition(u, Col(v, p), Row(v, p));
    SameCell(u, Col(v, p), Row(v, p));
    AreaBound(u);
    var r := Write(dev, h, payload);
    WritePlacement(dev, h, payload);
    FittingTargets(v, dev.width, dev.height, p);
    var k := Target(v, dev.width, dev.height, p).value;
    assert r.dev.data[k] == payload[i];
    assert Target(u, dev.width, dev.height, q) == Some(k);
    ReadCell(r.dev, g, q, k);
  }

  /** Seeking session g to position q and reading one byte returns the canvas byte k
      that q addresses. */
  lemma ReadCell(d: Device, g: Handle, q: nat, k: nat)
    requires Valid(d) && g in d.sessions && FitsIn(d.sessions[g].viewport, d.width, d.height)
    requires q < Area(d.sessions[g].viewport) && q < I64
    requires Target(d.sessions[g].viewport, d.width, d.height, q) == Some(k)
    ensures k < |d.data|
    ensures Read(Seek(d, g, q, SeekSet).dev, g, 1).reply == Bytes([d.data[k]])
  {
    var u := d.sessions[g].viewport;
    var d2 := Seek(d, g, q, SeekSet).dev;
    assert d2.sessions[g].viewport == u && d2.sessions[g].cursor == q && d2.data == d.data;
    ReadWindow(d2, g, 1);
    assert Window(d2.data, d2.width, d2.height, u, q, 1) == [d.data[k]];
  }

  /** A read of |payload| bytes from a position whose window holds the payload returns
      it and moves past it. */
  lemma ReadStored(d: Device, h: Handle, payload: seq<byte>)
    requires Valid(d) && h in d.sessions && 0 < |payload|
    requires FitsIn(d.sessions[h].viewport, d.width, d.height)
    requires d.sessions[h].cursor + |payload| <= Area(d.sessions[h].viewport)
    requires Window(d.data, d.width, d.height, d.sessions[h].viewport, d.sessions[h].cursor, |payload|) == payload
    ensures var r := Read(d, h, |payload|);
      r.reply == Bytes(payload) && r.dev.sessions[h].cursor == d.sessions[h].cursor + |payload|
  {
    var s := d.sessions[h];
    AreaPositive(s.viewport, s.cursor);
    ReadChunksInside(d.data, d.width, d.height, s.viewport, s.cursor, |payload|);
  }

  /** Writing and seeking back leaves the viewport and the position where they were and
      the canvas as the store loop left it. */
  lemma WriteThenSeekBack(dev: Device, h: Handle, payload: seq<byte>)
    requires Valid(dev) && h in dev.sessions && 0 < |payload|
    requires dev.sessions[h].cursor + |payload| <= Area(dev.sessions[h].viewport)
    ensures var s := dev.sessions[h];
      var d2 := Seek(Write(dev, h, payload).dev, h, s.cursor, SeekSet).dev;
      && s.viewport.width > 0 && h in d2.sessions
      && d2.sessions[h].viewport == s.viewport && d2.sessions[h].cursor == s.cursor
      && d2.width == dev.width && d2.height == dev.height
      && d2.data == Store(dev.data, dev.width, dev.height, s.viewport, s.op, s.cursor, payload)
  {
    var s := dev.sessions[h];
    AreaPositive(s.viewport, s.cursor);
    assert payload[..|payload|] == payload;
  }

  /** A SET store inside the canvas leaves the payload in the window it was written to. */
  lemma StoredWindow(data: seq<byte>, W: nat, H: nat, v: Viewport, start: nat, payload: seq<byte>)
    requires |data| == W * H && FitsIn(v, W, H) && start + |payload| <= Area(v) && v.width > 0
    ensures Window(Store(data, W, H, v, Set, start, payload), W, H, v, start, |payload|) == payload
  {
    var d := Store(data, W, H, v, Set, start, payload);
    StorePlacement(data, W, H, v, Set, start, payload);
    var win := Window(d, W, H, v, start, |payload|);
    forall j | 0 <= j < |payload|
      ensures win[j] == payload[j]
    {
      FittingTargets(v, W, H, start + j);
      var k := Target(v, W, H, start + j).value;
      assert d[k] == Combine(Set, data[k], payload[start + j - start]);
      assert win[j] == d[k];
    }
  }

  /** Inside the canvas, under SET, a read followed by a seek back and a write of the
      bytes it returned leaves the canvas exactly as it was. */
  lemma ReadThenWriteBack(dev: Device, h: Handle, count: nat)
    requires Valid(dev) && h in dev.sessions && dev.sessions[h].op == Set
    requires FitsIn(dev.sessions[h].viewport, dev.width, dev.height)
    requires dev.sessions[h].cursor + count <= Area(dev.sessions[h].viewport)
    ensures var start := dev.sessions[h].cursor;
      var r := Read(dev, h, count);
      && r.reply.Bytes? && |r.reply.bytes| == count
      && Write(Seek(r.dev, h, start, SeekSet).dev, h, r.reply.bytes).dev.data == dev.data
  {
    var s := dev.sessions[h];
    var r := Read(dev, h, count);
    ReadWindow(dev, h, count);
    var d2 := Seek(r.dev, h, s.cursor, SeekSet).dev;
    assert d2.sessions[h] == s && d2.data == dev.data && d2.width == dev.width && d2.height == dev.height;
    WriteWindowBack(d2, h, count);
  }

  /** A read inside the canvas returns the window of count bytes at the position and
      moves the position past it. */
  lemma ReadWindow(d: Device, h: Handle, count: nat)
    requires Valid(d) && h in d.sessions
    requires FitsIn(d.sessions[h].viewport, d.width, d.height)
    requires d.sessions[h].cursor + count <= Area(d.sessions[h].viewport)
    ensures var s := d.sessions[h];
      var r := Read(d, h, count);
      && r.reply == Bytes(Window(d.data, d.width, d.height, s.viewport, s.cursor, count))
      && r.dev.sessions[h].cursor == s.cursor + count
  {
    var s := d.sessions[h];
    if s.cursor < Area(s.viewport) {
      AreaPositive(s.viewport, s.cursor);
      ReadChunksInside(d.data, d.width, d.height, s.viewport, s.cursor, count);
    }
  }

  /** A SET write of the window at the position leaves the canvas unchanged. */
  lemma WriteWindowBack(d: Device, h: Handle, count: nat)
    requires Valid(d) && h in d.sessions && d.sessions[h].op == Set
    requires FitsIn(d.sessions[h].viewport, d.width, d.height)
    requires d.sessions[h].cursor + count <= Area(d.sessions[h].viewport)
    ensures var s := d.sessions[h];
      Write(d, h, Window(d.data, d.width, d.height, s.viewport, s.cursor, count)).dev.data == d.data
  {
    var s := d.sessions[h];
    var win := Window(d.data, d.width, d.height, s.viewport, s.cursor, count);
    if s.cursor < Area(s.viewport) {
      AreaPositive(s.viewport, s.cursor);
      assert win[..count] == win;
      WindowStoredBack(d.data, d.width, d.height, s.viewport, s.cursor, count);
    }
  }

  /** A SET store of the bytes a window holds, at the positions they came from, leaves
      the canvas as it was. */
  lemma WindowStoredBack(data: seq<byte>, W: nat, H: nat, v: Viewport, start: nat, n: nat)
    requires |data| == W * H && FitsIn(v, W, H) && start + n <= Area(v) && v.width > 0
    ensures Store(data, W, H, v, Set, start, Window(data, W, H, v, start, n)) == data
  {
    var win := Window(data, W, H, v, start, n);
    var d := Store(data, W, H, v, Set, start, win);
    StorePlacement(data, W, H, v, Set, start, win);
    forall k | 0 <= k < |data|
      ensures d[k] == data[k]
    {
      if Addressed(v, W, H, start, n, k) {
        var p :| start <= p < start + n && Target(v, W, H, p) == Some(k);
        FittingTargets(v, W, H, p);
        assert win[p - start] == ByteAt(data, W, H, v, p);
      }
    }
  }

  /** After a reset every byte a viewport inside the canvas reads is zero. */
  lemma ReadAfterReset(dev: Device, h: Handle, count: nat)
    requires Valid(dev) && h in dev.sessions
    requires FitsIn(dev.sessions[h].viewport, dev.width, dev.height)
    ensures var r := Read(Reset(dev), h, count);
      r.reply.Bytes? && forall i :: 0 <= i < |r.reply.bytes| ==> r.reply.bytes[i] == 0
  {
    var d := Reset(dev);
    var s := d.sessions[h];
    if s.cursor < Area(s.viewport) {
      var n := Min(count, Area(s.viewport) - s.cursor);
      ReadWindow(d, h, n);
      assert Read(d, h, count) == Read(d, h, n);
      forall i | 0 <= i < n
        ensures Window(d.data, d.width, d.height, s.viewport, s.cursor, n)[i] == 0
      {
        FittingTargets(s.viewport, d.width, d.height, s.cursor + i);
      }
    }
  }

  // ---------------------------------------------------------------------------
  // End of file and seek

  /** Once the position is at the end of the viewport, reads and writes transfer nothing
      and change nothing. */
  lemma EndOfFile(dev: Device, h: Handle, count: nat, payload: seq<byte>)
    requires Valid(dev) && h in dev.sessions
    ensures var d := Seek(dev, h, 0, SeekEnd).dev;
      && d.sessions[h].cursor == Area(dev.sessions[h].viewport)
      && Read(d, h, count) == Step(d, Bytes([]))
      && Write(d, h, payload) == Step(d, 0)
  {
    AreaBound(dev.sessions[h].viewport);
  }

  /** A relative seek after an absolute one lands where one absolute seek to the sum does. */
  lemma SeekComposes(dev: Device, h: Handle, a: i64, b: i64)
    requires Valid(dev) && h in dev.sessions && 0 <= a && 0 <= a + b < I64
    ensures Seek(Seek(dev, h, a, SeekSet).dev, h, b, SeekCur) == Seek(dev, h, a + b, SeekSet)
  {
  }

  /** A seek whose target for the given whence is below zero, or that names no whence,
      fails and moves nothing. */
  lemma SeekRejects(dev: Device, h: Handle, off: i64, whence: int)
    requires Valid(dev) && h in dev.sessions
    requires var s := dev.sessions[h];
      || whence !in {SeekSet, SeekCur, SeekEnd}
      || (whence == SeekSet && off < 0)
      || (whence == SeekCur && s.cursor + off < 0)
      || (whence == SeekEnd && Area(s.viewport) + off < 0)
    ensures Seek(dev, h, off, whence) == Step(dev, Err(EINVAL))
  {
  }

  /** The test program's case: on a 100x100 viewport at position 10000, seeking to -100
      from the start fails and the position stays at 10000. */
  lemma SeekNegativeScenario(dev: Device, h: Handle)
    requires Valid(dev) && h in dev.sessions
    requires dev.sessions[h].viewport == Viewport(0, 0, 100, 100) && dev.sessions[h].cursor == 10000
    ensures Seek(dev, h, -100, SeekSet) == Step(dev, Err(EINVAL))
    ensures Seek(dev, h, 0, SeekEnd).reply == Ok(10000)
  {
  }

  /** A position may be set anywhere up to 2^63 - 1; a relative seek beyond that wraps
      the signed sum negative and is refused. */
  lemma SeekWrapRejects(dev: Device, h: Handle)
    requires Valid(dev) && h in dev.sessions
    ensures var d := Seek(dev, h, I64 - 1, SeekSet);
      && d.reply == Ok(I64 - 1)
      && Seek(d.dev, h, I64 - 1, SeekCur) == Step(d.dev, Err(EINVAL))
      && Seek(d.dev, h, 1, SeekCur).reply.Err?
  {
  }

  // ---------------------------------------------------------------------------
  // Control commands

  /** Set-size with both sides in 1..10000 followed by get-size returns the argument. */
  lemma SizeRoundTrip(dev: Device, arg: nat)
    requires Valid(dev) && 1 <= arg / U16 <= MaxSide && 1 <= arg % U16 <= MaxSide
    ensures arg < U64 && SetSize(dev, arg).reply == Ok(0)
    ensures GetSize(SetSize(dev, arg).dev) == arg
  {
  }

  /** For arguments whose width field fits an int, set-size accepts exactly the sides in
      1..10000. */
  lemma SetSizeAccepts(dev: Device, arg: nat)
    requires Valid(dev) && arg < 0x8000_0000_0000
    ensures SetSize(dev, arg).reply.Ok? <==> 1 <= arg / U16 <= MaxSide && 1 <= arg % U16 <= MaxSide
  {
  }

  /** The width is stored into an int, so bits 48 and up of the argument are ignored. */
  lemma SetSizeIgnoresHighBits(dev: Device, arg: nat, k: nat)
    requires Valid(dev) && arg < 0x1_0000_0000_0000 && arg + k * 0x1_0000_0000_0000 < U64
    ensures SetSize(dev, arg + k * 0x1_0000_0000_0000) == SetSize(dev, arg)
  {
    var big := arg + k * 0x1_0000_0000_0000;
    assert big / U16 == arg / U16 + k * 0x1_0000_0000;
    assert big % U16 == arg % U16;
    ToInt32Periodic(arg / U16, k);
  }

  lemma ToInt32Periodic(x: nat, k: nat)
    ensures ToInt32(x + k * 0x1_0000_0000) == ToInt32(x)
  {
    assert (x + k * 0x1_0000_0000) % 0x1_0000_0000 == x % 0x1_0000_0000;
  }

  /** Set-viewport followed by get-viewport returns the rectangle that was set. */
  lemma ViewportRoundTrip(dev: Device, h: Handle, vp: Viewport)
    requires Valid(dev) && h in dev.sessions && FitsIn(vp, dev.width, dev.height)
    ensures GetViewport(SetViewport(dev, h, vp).dev, h) == vp
  {
  }

  /** Set-op followed by get-op on a writable file returns the code that was set. */
  lemma OpRoundTrip(dev: Device, h: Handle, arg: nat)
    requires Valid(dev) && h in dev.sessions && dev.sessions[h].access != ReadOnly && arg <= 5
    ensures GetOp(SetOp(dev, h, arg).dev, h) == Ok(arg)
  {
  }

  /** Opening a file and closing it again leaves the registry and the canvas as they were. */
  lemma OpenRelease(dev: Device, access: Access)
    requires Valid(dev)
    ensures var o := Open(dev, access);
      var d := Release(o.dev, o.reply);
      d.sessions == dev.sessions && d.data == dev.data && d.width == dev.width && d.height == dev.height
  {
  }

  // ---------------------------------------------------------------------------
  // Where the driver and its test programs disagree

  /** The driver accepts sides from 1, so 100x100 and 255x255 are accepted, where the
      tests expect sides up to 255 to be rejected; 256, 10000 and the bounds above behave
      as the tests expect. */
  lemma SmallSizesAccepted(dev: Device)
    requires Valid(dev)
    ensures SetSize(dev, 100 * U16 + 100).reply == Ok(0)
    ensures SetSize(dev, 255 * U16 + 255).reply == Ok(0)
    ensures SetSize(dev, 256 * U16 + 256).reply == Ok(0)
    ensures SetSize(dev, 10000 * U16 + 10000).reply == Ok(0)
    ensures SetSize(dev, 10001 * U16 + 10001).reply == Err(EINVAL)
    ensures SetSize(dev, 20000 * U16 + 20000).reply == Err(EINVAL)
  {
  }

  /** A file opened on a 500x500 canvas keeps its 500x500 viewport after another file
      shrinks the canvas to 300x300, and a 10-byte read from its start and a 10-byte write
      of the next 10 positions both transfer 10 bytes, where the tests expect 0. */
  lemma ShrinkStillTransfers(dev: Device, payload: seq<byte>)
    requires Valid(dev) && dev.width == 500 && dev.height == 500 && |payload| == 10
    ensures var o := Open(dev, ReadWrite);
      var d := SetSize(o.dev, 300 * U16 + 300).dev;
      var r := Read(d, o.reply, 10);
      && r.reply.Bytes? && |r.reply.bytes| == 10
      && Write(r.dev, o.reply, payload).reply == 10
  {
    var o := Open(dev, ReadWrite);
    Shrunk(dev);
    ShortReadAfterShrink(SetSize(o.dev, 300 * U16 + 300).dev, o.reply, payload);
  }

  /** Opening on a 500x500 canvas and shrinking it to 300x300 leaves the new file with
      the whole old canvas as its viewport, at position 0. */
  lemma Shrunk(dev: Device)
    requires Valid(dev) && dev.width == 500 && dev.height == 500
    ensures var o := Open(dev, ReadWrite);
      var d := SetSize(o.dev, 300 * U16 + 300).dev;
      && Valid(d) && o.reply in d.sessions && d.width == 300 && d.height == 300
      && d.sessions[o.reply].viewport == Viewport(0, 0, 500, 500) && d.sessions[o.reply].cursor == 0
  {
  }

  /** The first ten viewport bytes lie in the first canvas row, so the read copies them. */
  lemma ShortReadAfterShrink(d: Device, h: Handle, payload: seq<byte>)
    requires Valid(d) && h in d.sessions && d.width == 300 && d.height == 300
    requires d.sessions[h].viewport == Viewport(0, 0, 500, 500) && d.sessions[h].cursor == 0
    requires |payload| == 10
    ensures var r := Read(d, h, 10);
      r.reply.Bytes? && |r.reply.bytes| == 10 && Write(r.dev, h, payload).reply == 10
  {
    var v := Viewport(0, 0, 500, 500);
    assert NextChunk(300, 300, v, 0, 10) == Run(0, 10);
    assert ReadChunks(d.data, 300, 300, v, 0, 10) == Copied(d.data[0..10]);
  }

  /** In the same situation a 400-byte read copies the first 300 bytes of the row, then
      finds its column at the canvas edge with 100 bytes still to go: it never returns. */
  lemma ShrinkLongReadHangs(dev: Device)
    requires Valid(dev) && dev.width == 500 && dev.height == 500
    ensures var o := Open(dev, ReadWrite);
      var d := SetSize(o.dev, 300 * U16 + 300).dev;
      Read(d, o.reply, 400).reply == Hangs
  {
    var o := Open(dev, ReadWrite);
    Shrunk(dev);
    LongReadAfterShrink(SetSize(o.dev, 300 * U16 + 300).dev, o.reply);
  }

  /** The clip fires at column 300 of the first row with 100 bytes left. */
  lemma LongReadAfterShrink(d: Device, h: Handle)
    requires Valid(d) && h in d.sessions && d.width == 300 && d.height == 300
    requires d.sessions[h].viewport == Viewport(0, 0, 500, 500) && d.sessions[h].cursor == 0
    ensures Read(d, h, 400).reply == Hangs
  {
    ReadClipStalls(d.data, 300, 300, Viewport(0, 0, 500, 500), 0, 400);
  }
}

=== FILE: translate.dfy ===
/** Address translation between a session's viewport-linear positions and the canvas:
    the chunked read loop, the byte-by-byte write loop and the write's bounding region. */
module Translate {
  import opened Outcomes
  import opened Geometry
  import opened Blend

  // ---------------------------------------------------------------------------
  // Arithmetic helpers

  /** Multiplication by a natural is monotone. */
  lemma MulMono(x: int, y: int, w: nat)
    ensures x <= y ==> x * w <= y * w
    ensures x < y ==> x * w + w <= y * w
  {
    assert y * w - x * w == (y - x) * w;
    assert (y - x) * w - w == (y - x - 1) * w;
  }

  /** Euclidean division of a natural by a positive width. */
  lemma DivMod(p: nat, w: nat)
    requires w > 0
    ensures p == (p / w) * w + p % w && 0 <= p % w < w
  {
  }

  /** A quotient and remainder below w are determined by the value they denote. */
  lemma DivModUnique(a: nat, b: nat, c: nat, d: nat, w: nat)
    requires b < w && d < w
    requires a * w + b == c * w + d
    ensures a == c && b == d
  {
    MulMono(a, c, w);
    MulMono(c, a, w);
  }

  /** Quotient and remainder of a natural are natural, the remainder below the divisor. */
  lemma DivBounds(p: nat, w: nat)
    requires w > 0
    ensures 0 <= p / w && 0 <= p % w < w
  {
  }

  /** Positions that stay inside one viewport row share its row and advance its column. */
  lemma SameRow(p: nat, j: nat, w: nat)
    requires w > 0 && p % w + j < w
    ensures (p + j) / w == p / w && (p + j) % w == p % w + j
  {
    DivMod(p, w);
    DivMod(p + j, w);
    DivModUnique((p + j) / w, (p + j) % w, p / w, p % w + j, w);
  }

  /** A position below the area w*h lies in one of the h rows. */
  lemma RowBelow(p: nat, w: nat, h: nat)
    requires w > 0 && p < w * h
    ensures p / w < h
  {
    DivMod(p, w);
    MulMono(h, p / w, w);
  }

  /** Division by a positive width is monotone. */
  lemma MonotoneDiv(a: nat, b: nat, w: nat)
    requires w > 0 && a <= b
    ensures a / w <= b / w
  {
    DivMod(a, w);
    DivMod(b, w);
    MulMono(b / w, a / w, w);
  }

  /** A position below a viewport's area means the viewport is not empty. */
  lemma AreaPositive(v: Viewport, p: nat)
    requires p < Area(v)
    ensures v.width > 0 && v.height > 0
  {
  }

  /** A run of n cells starting at column c of row r of a W-column, H-row canvas lies in the buffer. */
  lemma RunInCanvas(r: nat, c: nat, n: nat, W: nat, H: nat)
    requires r < H && c + n <= W
    ensures 0 <= r * W && r * W + c + n <= W * H
  {
    MulMono(0, r, W);
    MulMono(r, H, W);
  }

  // ---------------------------------------------------------------------------
  // Addressing

  /** Canvas row of viewport-linear position p (row-major inside the viewport). */
  function Row(v: Viewport, p: nat): nat
    requires v.width > 0
  {
    v.y + p / v.width
  }

  /** Canvas column of viewport-linear position p. */
  function Col(v: Viewport, p: nat): nat
    requires v.width > 0
  {
    v.x + p % v.width
  }

  /** The buffer offset position p addresses on a W x H canvas, or None when its cell
      lies outside the canvas (the write loop then skips the byte). */
  function Target(v: Viewport, W: nat, H: nat, p: nat): (t: Option<nat>)
    requires v.width > 0
    ensures t.Some? <==> Row(v, p) < H && Col(v, p) < W
    ensures t.Some? ==> t.value == Row(v, p) * W + Col(v, p) && t.value < W * H
  {
    if Row(v, p) >= H || Col(v, p) >= W then None
    else
      RunInCanvas(Row(v, p), Col(v, p), 1, W, H);
      Some(Row(v, p) * W + Col(v, p))
  }

  /** The position of the cell at column c, row r in viewport u: the cells before it,
      counted row by row. */
  function CellPosition(u: Viewport, c: int, r: int): int
  {
    (r - u.y) * u.width + (c - u.x)
  }

  /** Every cell of a viewport is the one its position names, and that position lies
      below the viewport's area. */
  lemma SameCell(u: Viewport, c: int, r: int)
    requires Covers(u, c, r)
    ensures u.width > 0
    ensures 0 <= CellPosition(u, c, r) < Area(u)
    ensures Row(u, CellPosition(u, c, r)) == r && Col(u, CellPosition(u, c, r)) == c
  {
    var a: nat, b: nat := r - u.y, c - u.x;
    var q := a * u.width + b;
    DivMod(q, u.width);
    DivModUnique(q / u.width, q % u.width, a, b, u.width);
    MulMono(a, u.height, u.width);
  }

  /** Distinct positions never address the same canvas byte. */
  lemma TargetInjective(v: Viewport, W: nat, H: nat, p: nat, q: nat)
    requires v.width > 0
    ensures Target(v, W, H, p).Some? && Target(v, W, H, p) == Target(v, W, H, q) ==> p == q
  {
    if Target(v, W, H, p).Some? && Target(v, W, H, p) == Target(v, W, H, q) {
      DivModUnique(Row(v, p), Col(v, p), Row(v, q), Col(v, q), W);
      DivMod(p, v.width);
      DivMod(q, v.width);
    }
  }

  /** When the viewport fits the canvas every position below its area addresses a byte. */
  lemma FittingTargets(v: Viewport, W: nat, H: nat, p: nat)
    requires FitsIn(v, W, H) && p < Area(v)
    ensures v.width > 0 && Target(v, W, H, p).Some?
  {
    AreaPositive(v, p);
    RowBelow(p, v.width, v.height);
  }

  /** The canvas byte at viewport position p of a viewport that fits the canvas. */
  function ByteAt(data: seq<byte>, W: nat, H: nat, v: Viewport, p: nat): byte
    requires |data| == W * H && FitsIn(v, W, H) && p < Area(v)
  {
    FittingTargets(v, W, H, p);
    data[Target(v, W, H, p).value]
  }

  /** Reference meaning of a read: the n canvas bytes at viewport positions pos, pos+1, ... */
  function Window(data: seq<byte>, W: nat, H: nat, v: Viewport, pos: nat, n: nat): (r: seq<byte>)
    requires |data| == W * H && FitsIn(v, W, H) && pos + n <= Area(v)
    ensures |r| == n
    ensures forall j :: 0 <= j < n ==> r[j] == ByteAt(data, W, H, v, pos + j)
  {
    var r := seq<byte>(n, j requires 0 <= j < n => ByteAt(data, W, H, v, pos + j));
    r
  }

  // ---------------------------------------------------------------------------
  // Reading (fb536_read's chunk loop)

  /** How the chunk loop ends: it runs out of count or meets a row below the canvas (Copied),
      its clipped chunk becomes 0 while count stays positive so it repeats the same
      iteration forever (Spins), or the clip W - global_col is negative and wraps as an
      unsigned long (Overruns). Each carries the bytes copied before that point. */
  datatype ReadOutcome =
    | Copied(bytes: seq<byte>)
    | Spins(bytes: seq<byte>)
    | Overruns(bytes: seq<byte>)
  {
    function Prepend(prefix: seq<byte>): (r: ReadOutcome)
      ensures r.bytes == prefix + bytes
      ensures r.Copied? == Copied? && r.Spins? == Spins?
    {
      match this
      case Copied(b) => Copied(prefix + b)
      case Spins(b) => Spins(prefix + b)
      case Overruns(b) => Overruns(prefix + b)
    }
  }

  /** What one iteration of the loop does at position pos with count bytes still to go. */
  datatype Chunk =
    | Stop             // the viewport row lies below the canvas: break
    | Wrap             // global_col > W: the clipped length W - global_col wraps
    | Stall            // global_col == W: the clipped length is 0
    | Run(off: nat, n: nat)  // copy n bytes from buffer offset off

  /** One iteration of the loop body: the row-limited chunk, then the canvas checks. */
  function NextChunk(W: nat, H: nat, v: Viewport, pos: nat, count: nat): (c: Chunk)
    requires 0 < count && v.width > 0
    ensures c.Run? ==> 0 < c.n <= count && c.off + c.n <= W * H
  {
    DivBounds(pos, v.width);
    var col := pos % v.width;
    var chunk := Min(count, v.width - col);
    var gRow := v.y + pos / v.width;
    var gCol := v.x + col;
    if gRow >= H then Stop
    else if gCol + chunk > W && gCol > W then Wrap
    else
      var n := if gCol + chunk > W then W - gCol else chunk;
      if n == 0 then Stall
      else
        assert 0 <= n && gRow < H && gCol + n <= W;
        RunInCanvas(gRow, gCol, n, W, H);
        Run(gRow * W + gCol, n)
  }

  /** Which case an iteration takes, in terms of the addressed row and column. */
  lemma NextChunkCases(W: nat, H: nat, v: Viewport, pos: nat, count: nat)
    requires 0 < count && v.width > 0
    ensures var c := NextChunk(W, H, v, pos, count);
      && (c.Stop? <==> Row(v, pos) >= H)
      && (c.Wrap? <==> Row(v, pos) < H && Col(v, pos) > W)
      && (c.Stall? <==> Row(v, pos) < H && Col(v, pos) == W)
      && (c.Run? ==> c.off == Row(v, pos) * W + Col(v, pos) && Col(v, pos) + c.n <= W)
      && (c.Run? ==> pos % v.width + c.n <= v.width)
      && (c.Run? && v.x + v.width <= W ==> c.n == Min(count, v.width - pos % v.width))
  {
  }

  /** The n bytes of a run are exactly the buffer bytes positions pos .. pos+n-1 address. */
  lemma RunTargets(W: nat, H: nat, v: Viewport, pos: nat, count: nat, j: nat)
    requires 0 < count && v.width > 0
    requires NextChunk(W, H, v, pos, count).Run? && j < NextChunk(W, H, v, pos, count).n
    ensures v.width > 0 && Target(v, W, H, pos + j) == Some(NextChunk(W, H, v, pos, count).off + j)
  {
    NextChunkCases(W, H, v, pos, count);
    SameRow(pos, j, v.width);
  }

  /** The read loop from viewport position pos with count (already capped at the area). */
  function ReadChunks(data: seq<byte>, W: nat, H: nat, v: Viewport, pos: nat, count: nat): (r: ReadOutcome)
    requires |data| == W * H && v.width > 0
    ensures |r.bytes| <= count
    decreases count
  {
    if count == 0 then Copied([])
    else
      match NextChunk(W, H, v, pos, count)
      case Stop => Copied([])
      case Wrap => Overruns([])
      case Stall => Spins([])
      case Run(off, n) => ReadChunks(data, W, H, v, pos + n, count - n).Prepend(data[off..off + n])
  }

  /** The bytes were read from the buffer offsets positions pos, pos+1, ... address. */
  predicate FromCanvas(data: seq<byte>, W: nat, H: nat, v: Viewport, pos: nat, bytes: seq<byte>)
  {
    forall j :: 0 <= j < |bytes| ==> ReadsFrom(data, W, H, v, pos + j, bytes[j])
  }

  /** b is the buffer byte at the offset viewport position p addresses. */
  predicate ReadsFrom(data: seq<byte>, W: nat, H: nat, v: Viewport, p: nat, b: byte)
  {
    v.width > 0 && match Target(v, W, H, p)
      case None => false
      case Some(k) => k < |data| && data[k] == b
  }

  /** Reads from adjacent position ranges concatenate. */
  lemma FromCanvasAppend(data: seq<byte>, W: nat, H: nat, v: Viewport, pos: nat, a: seq<byte>, b: seq<byte>)
    requires FromCanvas(data, W, H, v, pos, a) && FromCanvas(data, W, H, v, pos + |a|, b)
    ensures FromCanvas(data, W, H, v, pos, a + b)
  {
    var ab := a + b;
    forall j | 0 <= j < |ab|
      ensures ReadsFrom(data, W, H, v, pos + j, ab[j])
    {
      if j < |a| {
        assert ab[j] == a[j];
      } else {
        var i := j - |a|;
        assert ab[j] == b[i];
        assert (pos + |a|) + i == pos + j;
      }
    }
  }

  /** A run copies the bytes its positions address. */
  lemma RunFromCanvas(data: seq<byte>, W: nat, H: nat, v: Viewport, pos: nat, count: nat)
    requires |data| == W * H && 0 < count && v.width > 0
    requires NextChunk(W, H, v, pos, count).Run?
    ensures var c := NextChunk(W, H, v, pos, count);
      FromCanvas(data, W, H, v, pos, data[c.off..c.off + c.n])
  {
    var c := NextChunk(W, H, v, pos, count);
    var run := data[c.off..c.off + c.n];
    forall j | 0 <= j < |run|
      ensures ReadsFrom(data, W, H, v, pos + j, run[j])
    {
      RunTargets(W, H, v, pos, count, j);
      assert run[j] == data[c.off + j];
    }
    assert FromCanvas(data, W, H, v, pos, run);
  }

  /** Every byte the loop returns is the canvas byte its viewport position addresses. */
  lemma {:induction false} ReadChunksSound(data: seq<byte>, W: nat, H: nat, v: Viewport, pos: nat, count: nat)
    requires |data| == W * H && v.width > 0
    ensures FromCanvas(data, W, H, v, pos, ReadChunks(data, W, H, v, pos, count).bytes)
    decreases count
  {
    if count > 0 && NextChunk(W, H, v, pos, count).Run? {
      var c := NextChunk(W, H, v, pos, count);
      ReadChunksSound(data, W, H, v, pos + c.n, count - c.n);
      RunFromCanvas(data, W, H, v, pos, count);
      FromCanvasAppend(data, W, H, v, pos, data[c.off..c.off + c.n], ReadChunks(data, W, H, v, pos + c.n, count - c.n).bytes);
    }
  }

  /** Positions of viewport v whose row lies on a canvas of H rows: the whole rows above
      the canvas bottom. */
  function RowsOnCanvas(v: Viewport, H: nat): nat
  {
    VisibleRows(v, H) * v.width
  }

  /** How many of the viewport's rows lie on a canvas of height H. */
  function VisibleRows(v: Viewport, H: nat): nat
  {
    if v.y >= H then 0 else Min(v.height, H - v.y)
  }

  /** A viewport row on the canvas ends at or before the canvas bottom's position bound. */
  lemma RowEndOnCanvas(v: Viewport, H: nat, pos: nat)
    requires v.width > 0 && pos < Area(v) && v.y + pos / v.width < H
    ensures pos + (v.width - pos % v.width) <= RowsOnCanvas(v, H)
  {
    var w := v.width;
    var row := pos / w;
    DivMod(pos, w);
    RowBelow(pos, w, v.height);
    MulMono(row + 1, VisibleRows(v, H), w);
  }

  /** A viewport row below the canvas starts at or after that bound. */
  lemma RowPastBottom(v: Viewport, H: nat, pos: nat)
    requires v.width > 0 && v.y + pos / v.width >= H
    ensures pos >= RowsOnCanvas(v, H)
  {
    var w := v.width;
    DivMod(pos, w);
    DivBounds(pos, w);
    MulMono(VisibleRows(v, H), pos / w, w);
  }

  /** With the viewport's columns inside the canvas the loop always ends, and it stops at
      the canvas bottom: the count is short exactly when a row falls below it. */
  lemma {:induction false} ReadChunksShort(data: seq<byte>, W: nat, H: nat, v: Viewport, pos: nat, count: nat)
    requires |data| == W * H && v.width > 0 && pos + count <= Area(v)
    requires v.x + v.width <= W
    ensures var r := ReadChunks(data, W, H, v, pos, count);
      r.Copied? && |r.bytes| == if pos >= RowsOnCanvas(v, H) then 0 else Min(count, RowsOnCanvas(v, H) - pos)
    decreases count
  {
    if count > 0 {
      NextChunkCases(W, H, v, pos, count);
      DivBounds(pos, v.width);
      if Row(v, pos) >= H {
        RowPastBottom(v, H, pos);
      } else {
        RowEndOnCanvas(v, H, pos);
        var n := NextChunk(W, H, v, pos, count).n;
        ReadChunksShort(data, W, H, v, pos + n, count - n);
      }
    }
  }

  /** For a viewport inside the canvas the loop returns exactly the capped count, and its
      bytes are the canvas bytes of the addressed positions. */
  lemma ReadChunksInside(data: seq<byte>, W: nat, H: nat, v: Viewport, pos: nat, count: nat)
    requires |data| == W * H && v.width > 0 && FitsIn(v, W, H) && pos + count <= Area(v)
    ensures ReadChunks(data, W, H, v, pos, count) == Copied(Window(data, W, H, v, pos, count))
  {
    ReadChunksShort(data, W, H, v, pos, count);
    ReadChunksSound(data, W, H, v, pos, count);
    var r := ReadChunks(data, W, H, v, pos, count);
    AllRowsVisible(v, W, H);
    FromCanvasIsWindow(data, W, H, v, pos, r.bytes);
  }

  /** Every row of a viewport inside the canvas is on it. */
  lemma AllRowsVisible(v: Viewport, W: nat, H: nat)
    requires FitsIn(v, W, H)
    ensures RowsOnCanvas(v, H) == Area(v)
  {
    assert VisibleRows(v, H) == v.height;
  }

  /** Inside the canvas, bytes drawn from the canvas at successive positions are its window. */
  lemma FromCanvasIsWindow(data: seq<byte>, W: nat, H: nat, v: Viewport, pos: nat, bytes: seq<byte>)
    requires |data| == W * H && FitsIn(v, W, H) && pos + |bytes| <= Area(v)
    requires FromCanvas(data, W, H, v, pos, bytes)
    ensures bytes == Window(data, W, H, v, pos, |bytes|)
  {
    var win := Window(data, W, H, v, pos, |bytes|);
    forall j | 0 <= j < |bytes|
      ensures bytes[j] == win[j]
    {
      assert ReadsFrom(data, W, H, v, pos + j, bytes[j]);
    }
  }

  /** When the column clip fires with global_col < W, the loop copies the clipped chunk,
      then finds global_col == W and a chunk of 0 with count still positive: it spins. */
  lemma ReadClipStalls(data: seq<byte>, W: nat, H: nat, v: Viewport, pos: nat, count: nat)
    requires |data| == W * H && 0 < count && v.width > 0
    requires v.y + pos / v.width < H
    requires v.x + pos % v.width < W < v.x + pos % v.width + Min(count, v.width - pos % v.width)
    ensures var r := ReadChunks(data, W, H, v, pos, count);
      r.Spins? && |r.bytes| == W - (v.x + pos % v.width) < count
  {
    var w := v.width;
    var n := W - (v.x + pos % w);
    SameRow(pos, n, w);
    var r2 := ReadChunks(data, W, H, v, pos + n, count - n);
    assert r2 == Spins([]);
  }

  /** A viewport column beyond the canvas edge makes W - global_col negative. */
  lemma ReadOverrunsPastEdge(data: seq<byte>, W: nat, H: nat, v: Viewport, pos: nat, count: nat)
    requires |data| == W * H && 0 < count && v.width > 0
    requires v.y + pos / v.width < H && v.x + pos % v.width > W
    ensures ReadChunks(data, W, H, v, pos, count) == Overruns([])
  {
  }

  /** Windows of adjacent position ranges concatenate. */
  lemma WindowSplit(data: seq<byte>, W: nat, H: nat, v: Viewport, pos: nat, n: nat, k: nat)
    requires |data| == W * H && FitsIn(v, W, H) && pos + n + k <= Area(v)
    ensures Window(data, W, H, v, pos, n + k) == Window(data, W, H, v, pos, n) + Window(data, W, H, v, pos + n, k)
  {
    var a := Window(data, W, H, v, pos, n);
    var b := Window(data, W, H, v, pos + n, k);
    var c := Window(data, W, H, v, pos, n + k);
    forall j | 0 <= j < n + k
      ensures c[j] == (a + b)[j]
    {
      if j >= n {
        assert (a + b)[j] == b[j - n];
      }
    }
  }

  /** The chunk loop as written, for a viewport inside the canvas: it terminates after
      count bytes, each the canvas byte its position addresses. */
  method ReadLoop(data: seq<byte>, W: nat, H: nat, v: Viewport, pos: nat, count: nat)
    returns (bytes: seq<byte>, cursor: nat)
    requires |data| == W * H && FitsIn(v, W, H) && pos + count <= Area(v)
    ensures cursor == pos + count
    ensures bytes == Window(data, W, H, v, pos, count)
  {
    bytes := [];
    cursor := pos;
    var left: nat := count;
    while left > 0
      invariant pos <= cursor && cursor + left == pos + count
      invariant bytes == Window(data, W, H, v, pos, cursor - pos)
      decreases left
    {
      AreaPositive(v, cursor);
      DivBounds(cursor, v.width);
      var col := cursor % v.width;
      var row := cursor / v.width;
      var chunk := Min(left, v.width - col);
      var gRow := v.y + row;
      var gCol := v.x + col;
      // Neither safety check of fb536_read fires for a viewport inside the canvas.
      RowBelow(cursor, v.width, v.height);
      assert gRow < H && gCol + chunk <= W;
      RunInCanvas(gRow, gCol, chunk, W, H);
      var off := gRow * W + gCol;
      var piece := data[off..off + chunk];
      forall j | 0 <= j < chunk
        ensures piece[j] == ByteAt(data, W, H, v, cursor + j)
      {
        SameRow(cursor, j, v.width);
      }
      assert piece == Window(data, W, H, v, cursor, chunk);
      WindowSplit(data, W, H, v, pos, cursor - pos, chunk);
      bytes := bytes + piece;
      cursor := cursor + chunk;
      left := left - chunk;
    }
  }

  // ---------------------------------------------------------------------------
  // Writing (fb536_write's byte loop)

  /** One iteration of the write loop: combine b into the byte position p addresses,
      or skip it when that cell is outside the canvas. */
  function StoreOne(data: seq<byte>, W: nat, H: nat, v: Viewport, op: Op, p: nat, b: byte): (r: seq<byte>)
    requires |data| == W * H && v.width > 0
    ensures |r| == |data|
  {
    match Target(v, W, H, p)
    case None => data
    case Some(k) => data[k := Combine(op, data[k], b)]
  }

  /** The write loop over payload, byte 0 first, from viewport position start. */
  function Store(data: seq<byte>, W: nat, H: nat, v: Viewport, op: Op, start: nat, payload: seq<byte>): (r: seq<byte>)
    requires |data| == W * H && v.width > 0
    ensures |r| == |data|
    decreases |payload|
  {
    if |payload| == 0 then data
    else Store(StoreOne(data, W, H, v, op, start, payload[0]), W, H, v, op, start + 1, payload[1..])
  }

  /** Some position in start .. start+n-1 addresses buffer offset k. */
  predicate Addressed(v: Viewport, W: nat, H: nat, start: nat, n: nat, k: nat)
    requires v.width > 0
  {
    exists p :: start <= p < start + n && Target(v, W, H, p) == Some(k)
  }

  /** Payload byte i is combined into the byte position start+i addresses; every byte no
      position addresses keeps its value. */
  lemma {:induction false} StorePlacement(data: seq<byte>, W: nat, H: nat, v: Viewport, op: Op, start: nat, payload: seq<byte>)
    requires |data| == W * H && v.width > 0
    ensures var r := Store(data, W, H, v, op, start, payload);
      forall p :: start <= p < start + |payload| && Target(v, W, H, p).Some? ==>
        r[Target(v, W, H, p).value] == Combine(op, data[Target(v, W, H, p).value], payload[p - start])
    ensures var r := Store(data, W, H, v, op, start, payload);
      forall k :: 0 <= k < |data| && !Addressed(v, W, H, start, |payload|, k) ==> r[k] == data[k]
    decreases |payload|
  {
    if |payload| > 0 {
      var d1 := StoreOne(data, W, H, v, op, start, payload[0]);
      var tail := payload[1..];
      StorePlacement(d1, W, H, v, op, start + 1, tail);
      var r := Store(data, W, H, v, op, start, payload);
      assert r == Store(d1, W, H, v, op, start + 1, tail);
      forall p | start <= p < start + |payload| && Target(v, W, H, p).Some?
        ensures r[Target(v, W, H, p).value] == Combine(op, data[Target(v, W, H, p).value], payload[p - start])
      {
        var k := Target(v, W, H, p).value;
        forall q | q != p
          ensures Target(v, W, H, q) != Some(k)
        {
          TargetInjective(v, W, H, p, q);
        }
        assert !Addressed(v, W, H, start + 1, |tail|, k) || p > start;
        assert p > start ==> payload[p - start] == tail[p - (start + 1)];
      }
      forall k | 0 <= k < |data| && !Addressed(v, W, H, start, |payload|, k)
        ensures r[k] == data[k]
      {
        forall q | start + 1 <= q < start + 1 + |tail|
          ensures Target(v, W, H, q) != Some(k)
        {
          assert start <= q < start + |payload|;
        }
        assert Target(v, W, H, start) != Some(k);
      }
    }
  }

  // ---------------------------------------------------------------------------
  // The region a write reports to waiting sessions

  const U64: int := 0x1_0000_0000_0000_0000

  /** Bounding box of a write of count bytes from position start: the viewport's full
      columns over the rows from the first to the last addressed one. The last position
      start+count-1 is an unsigned long (it wraps when count is 0 at position 0) and every
      field is stored into an unsigned short. */
  function WriteRegion(v: Viewport, start: nat, count: nat): (region: Viewport)
    requires v.width > 0
    ensures region.x == v.x && region.width == v.width
  {
    var last := ToU64(start + count - 1);
    var firstRow := start / v.width;
    var lastRow := last / v.width;
    Viewport(v.x, ToU16(v.y + firstRow), v.width, ToU16(ToU64(lastRow - firstRow + 1)))
  }

  /** Conversion to unsigned long: reduction modulo 2^64. */
  function ToU64(x: int): (r: nat)
    ensures r < U64 && (0 <= x < U64 ==> r == x)
  {
    x % U64
  }

  /** Conversion to unsigned short: reduction modulo 2^16. */
  function ToU16(x: int): (r: u16)
    ensures 0 <= x < U16 ==> r == x
  {
    x % U16
  }

  /** A non-empty write's region covers the cell of every byte it addresses, and it spans
      exactly the rows from the first to the last of them. */
  lemma WriteRegionCovers(v: Viewport, start: nat, count: nat)
    requires v.width > 0 && 0 < count && start + count <= Area(v)
    requires v.y + v.height <= U16
    ensures var region := WriteRegion(v, start, count);
      && region.y == Row(v, start)
      && region.y + region.height == Row(v, start + count - 1) + 1
      && forall p :: start <= p < start + count ==> Covers(region, Col(v, p), Row(v, p))
  {
    var region := WriteRegion(v, start, count);
    WriteRegionRows(v, start, count);
    forall p | start <= p < start + count
      ensures Covers(region, Col(v, p), Row(v, p))
    {
      RowSpanCovers(v, region, start, start + count - 1, p);
    }
  }

  /** Without wrap-around the region's rows are the first to the last addressed row. */
  lemma WriteRegionRows(v: Viewport, start: nat, count: nat)
    requires v.width > 0 && 0 < count && start + count <= Area(v)
    requires v.y + v.height <= U16
    ensures WriteRegion(v, start, count).y == v.y + start / v.width
    ensures WriteRegion(v, start, count).height == (start + count - 1) / v.width - start / v.width + 1
  {
    var w := v.width;
    var last := start + count - 1;
    assert last < U64 by { AreaBound(v); }
    var firstRow, lastRow := start / w, last / w;
    assert firstRow <= lastRow < v.height by {
      RowBelow(last, w, v.height);
      MonotoneDiv(start, last, w);
    }
    assert ToU64(last) == last;
    assert 0 <= firstRow by { DivBounds(start, w); }
  }

  /** A region with the viewport's columns over rows start/w ..= last/w covers every
      position between start and last. */
  lemma RowSpanCovers(v: Viewport, region: Viewport, start: nat, last: nat, p: nat)
    requires v.width > 0 && start <= p <= last
    requires region.x == v.x && region.width == v.width
    requires region.y == v.y + start / v.width && region.height == last / v.width - start / v.width + 1
    ensures Covers(region, Col(v, p), Row(v, p))
  {
    MonotoneDiv(start, p, v.width);
    MonotoneDiv(p, last, v.width);
    DivBounds(p, v.width);
  }

  /** A viewport has fewer than 2^32 positions, so its position count fits an unsigned
      long and any position below it fits a loff_t. */
  lemma AreaBound(v: Viewport)
    ensures Area(v) < 0x1_0000_0000
  {
    MulMono(v.width, U16, v.height);
    MulMono(v.height, U16, U16);
  }
}
